=== FILE: README.md ===
# Organization platform: donations, payments and admin pages in Dafny

This project models the donation and administration core of a charity's
website. Donors submit a donation form, which adds a row to the `donations`
table. The donor then pays in one of two ways:

- Mobile money (MTN MoMo or Airtel Money). The flow is `POST /api/payments/initiate`,
  then `POST /api/payments/status`.
- Card, through Flutterwave. The flow is `POST /api/payments/card/initiate`, then
  `POST /api/payments/card/verify` or the signed webhook `POST /api/payments/card/webhook`.

Administrators list, total, export and delete donations. They also:

- edit and reorder the home-page slides;
- edit the vision, mission, about items and objectives;
- approve membership and partnership applications or register them directly;
- read the analytics dashboard.

The client state lives in one persisted store (theme, signed-in admin, sidebar,
notification). File uploads go through one shared component.

Every route handler and page action is a pure function. It takes the request,
the table(s) it reads and the provider's reply, and it returns:

- the HTTP status and body;
- the table(s) after its writes;
- the request it sent to the provider.

The following become parameters: generated UUIDs, ids and timestamps;
`Math.random`; the e-mail regular expression; the outcome of each database
write; the `confirm` dialog answer.

Tables are sequences of rows in the order the store returns them. This order
gives `.single()` its meaning (exactly one match, otherwise an error) and gives
`.limit(1)` its meaning (the first match). An update patches every row that
matches its filter.

Modules:

| file | module | what it holds |
|---|---|---|
| wrappers.dfy | Wrappers | `Option` for JavaScript `null`/`undefined` |
| js_text.dfy | JsText | truthiness, `replace(/\D/g,'')`, integer `toString`, `padStart`, `slice`, `toUpperCase`, `split().pop()` |
| js_date.dfy | JsDate | instants, `toISOString().slice(0,10).replace(/-/g,'')` |
| donations.dfy | Donations | the `donations` row, update and lookup queries |
| providers.dfy | Providers | MTN, Airtel and Flutterwave status vocabularies |
| mobile_initiate.dfy | MobileInitiate | `POST /api/payments/initiate` and its two adapters |
| mobile_status.dfy | MobileStatus | `POST /api/payments/status` |
| card_initiate.dfy | CardInitiate | `POST /api/payments/card/initiate` |
| card_verify.dfy | CardVerify | `POST /api/payments/card/verify` |
| card_webhook.dfy | CardWebhook | `POST /api/payments/card/webhook` |
| payment_flow.dfy | PaymentFlow | initiate-then-settle across routes |
| donate_form.dfy | DonateForm | the donation form's schema and submission |
| admin_donations.dfy | DonationsAdmin | donations list, receipt number, total, CSV, delete |
| order_index.dfy | OrderIndex | the "max order index + 1" rule |
| slides.dfy | Slides | slides editor and reorder |
| content.dfy | Content | vision, mission, about items, objectives |
| applications.dfy | Applications | approval and direct registration, counts |
| analytics.dfy | Analytics | dashboard statistics, page views, recent activity |
| app_store.dfy | AppStore | the persisted client store |
| file_upload.dfy | FileUpload | the upload component |

The model keeps these behaviours of the code:

- Donations with a non-manual method are inserted with `receipt_generated` set while still pending (`DonateForm.SubmittedRowsMayClaimReceipt`). So "`receipt_generated` exactly when the payment succeeded" holds only on the rows the status, verify and webhook routes write. The initiate routes leave the flag alone.
- The receipt number generated at submission is stored in `payment_reference`. The card routes look donations up by `receipt_number`, so a webhook for that number does not find the submitted row (`PaymentFlow.SubmittedReceiptIsNotLookedUp`). The card round trip is proved only for rows that carry a receipt number (`PaymentFlow.CardWebhookSettlesInitiatedDonation`).
- The webhook overwrites `payment_reference` with the provider's numeric transaction id. A later mobile-money status check keyed by the old reference then no longer finds the row. The model keeps this divergence.

## Model

All source paths are under `organization-platform/`.

| member | source | states |
|---|---|---|
| Donations.Update | organization-platform/app/api/payments/status/route.ts:43-50 | an update by filter keeps the table's length |
| Donations.CountMatches | organization-platform/app/api/payments/initiate/route.ts:34-38 | the number of rows a filter selects is zero exactly when no row matches |
| Donations.FirstMatch | organization-platform/app/api/payments/card/webhook/route.ts:34-38 | `.limit(1)` gives the first matching row: it matches, and no earlier row does; none exactly when no row matches |
| Donations.SingleById | organization-platform/app/api/payments/initiate/route.ts:34-45 | `.single()` finds a row exactly when one row has the id, and that row has the id |
| Donations.UniqueIdCountsOnce | organization-platform/lib/supabase/types.ts:519-532 | with unique ids (the primary key), each row's id selects exactly one row |
| Donations.SingleByIdFindsRow | organization-platform/app/api/payments/card/initiate/route.ts:25-36 | with unique ids, the lookup by a row's id returns that row |
| Donations.FirstByReceiptFindsRow | organization-platform/app/api/payments/card/webhook/route.ts:34-38 | with unique receipt numbers, the webhook's lookup by a row's receipt number returns that row |
| JsText.DigitsOnly | organization-platform/app/api/payments/initiate/route.ts:137 | the stripped phone has only digits and is no longer than the input |
| JsText.DigitsOnlyAppend | organization-platform/app/api/payments/initiate/route.ts:202 | stripping works piecewise, so the digits keep their order |
| JsText.DigitsOnlyKeepsDigits | organization-platform/app/api/payments/initiate/route.ts:137 | a phone that is already all digits is sent unchanged |
| JsText.DigitsOnlyKeepsEveryDigit | organization-platform/app/api/payments/initiate/route.ts:202 | each digit occurs in the stripped phone as often as in the input |
| JsText.NatToDecimal | organization-platform/app/api/payments/card/webhook/route.ts:49 | `toString` gives a non-empty digit string with no leading zero |
| JsText.DecimalRoundTrip | organization-platform/app/api/payments/card/webhook/route.ts:49 | reading back a rendered number gives the number |
| JsText.IntToDecimalInjective | organization-platform/app/api/payments/card/webhook/route.ts:49 | two different transaction ids never render to the same reference text |
| JsText.DecimalAppend | organization-platform/app/admin/donations/page.tsx:69 | the value of concatenated digit strings is the left part shifted by the right part's width, plus the right part |
| JsText.ZeroPad | organization-platform/app/admin/donations/page.tsx:69 | padded numbers are digit strings of the requested width that still denote the number |
| JsText.RemoveAll | organization-platform/app/admin/donations/page.tsx:69 | after `replace(/c/g,'')` the character no longer occurs |
| JsText.RemoveAllAppend | organization-platform/app/admin/donations/page.tsx:69 | the removal works piecewise over a concatenation |
| JsText.RemoveAllAbsent | organization-platform/app/admin/donations/page.tsx:69 | text without the character is left unchanged |
| JsText.LastSegment | organization-platform/components/FileUpload.tsx:89 | `split(sep).pop()` is a suffix without the separator, preceded by the separator when shorter than the input |
| JsDate.IsoDatePrefix | organization-platform/app/admin/donations/page.tsx:69 | for a four-digit year, `toISOString().slice(0, 10)` is `YYYY-MM-DD` with zero-padded month and day |
| JsDate.CompactDate | organization-platform/app/admin/donations/page.tsx:69 | the compacted date has at most ten characters and no dash |
| JsText.UpperAscii | organization-platform/app/admin/donations/page.tsx:69 | `toUpperCase` keeps the length, turns every ASCII lower-case letter into its capital and keeps every other character |
| JsDate.CompactDateIsYyyyMmDd | organization-platform/app/admin/donations/page.tsx:69 | the compacted ISO date is eight digits that read as year, month and day |
| Providers.MtnStatus | organization-platform/app/api/payments/status/route.ts:95-96 | success exactly for `SUCCESSFUL`, processing exactly for `PENDING`, never pending |
| Providers.AirtelStatus | organization-platform/app/api/payments/status/route.ts:140-141 | success exactly for code `200` with `TS`, processing exactly for `TP`, never pending |
| Providers.FlutterwaveStatus | organization-platform/app/api/payments/card/verify/route.ts:45-46 | success exactly for `successful`, failed exactly for `failed`, otherwise processing |
| MobileInitiate.MtnAdapter | organization-platform/app/api/payments/initiate/route.ts:96-160 | success exactly for an ok HTTP answer, with the generated X-Reference-Id as reference; errors are prefixed `MTN payment failed: ` |
| MobileInitiate.AirtelAdapter | organization-platform/app/api/payments/initiate/route.ts:162-230 | success exactly for an ok answer with code `200`; the reference is Airtel's transaction id, or the donation id when Airtel sent none; errors are prefixed `Airtel payment failed: ` |
| MobileInitiate.Post | organization-platform/app/api/payments/initiate/route.ts:21-94 | missing fields and unsupported methods answer 400, an unknown donation 404, all without a provider call or write. The provider gets the digits of the phone. A failed adapter answers 500 with no write. A 200 sets exactly that donation to processing with the returned reference |
| MobileStatus.Post | organization-platform/app/api/payments/status/route.ts:19-65 | missing fields answer 400, a provider error 500, both without a write. When MTN answered, every row with that reference gets `MtnStatus` of its `status` and the answer names it; when Airtel answered, `AirtelStatus` of its code and transaction status. Either way the status is never pending and `receipt_generated` holds exactly when it is success. Other rows are untouched. An unknown provider still writes and answers `failed` |
| MobileStatus.SettledRowsAreNotProtected | organization-platform/app/api/payments/status/route.ts:43-50 | a later `PENDING` turns a successful row back into a processing one without a receipt |
| CardInitiate.Post | organization-platform/app/api/payments/card/initiate/route.ts:12-99 | missing fields answer 400 and an unknown donation 404, with no call. The provider gets the receipt number as `tx_ref` and in `meta`. A refused session answers 500 with no write. An accepted session writes the reference and processing even when the answer has no `data` |
| CardInitiate.PhoneNumberIsOptional | organization-platform/app/api/payments/card/initiate/route.ts:17-22 | the phone number changes neither the status code nor the writes |
| CardVerify.Post | organization-platform/app/api/payments/card/verify/route.ts:12-82 | a missing transaction id answers 400 without a call. An error or unconfirmed answer answers 500 with no write. A 200 reports the mapped status. It writes that status, with `receipt_generated` exactly on success, to the rows sharing the id of the first donation whose receipt number is the charge's reported `tx_ref`, or writes nothing when there is none |
| CardVerify.VerifyWritesOneRow | organization-platform/app/api/payments/card/verify/route.ts:49-64 | with unique receipt numbers, a 200 writes only the row that carries the charge's `tx_ref` |
| CardVerify.ClientTxRefIgnored | organization-platform/app/api/payments/card/verify/route.ts:17-53 | the `tx_ref` the client sends has no effect on the outcome |
| CardWebhook.Post | organization-platform/app/api/payments/card/webhook/route.ts:12-67 | a body that is not JSON answers 500. A missing or wrong signature answers 401 and a non-completion event 200, both without a query. A completed event without `data` answers 500 before any query; with `data` the donation is always looked up. No matching donation: 200 with no write. A match whose charge has no `id` answers 500 with no write (`id.toString()` throws); a match with an `id` answers 200 and writes the mapped status, the charge id as reference and `receipt_generated` on the donation with that id, and nothing else |
| CardWebhook.SameReceiptsSameTarget | organization-platform/app/api/payments/card/webhook/route.ts:34-38 | tables that agree on every receipt number pick the same target row |
| CardWebhook.RedeliveryIsIdempotent | organization-platform/app/api/payments/card/webhook/route.ts:40-58 | delivering an event that was answered 200 a second time gives the same answer and the same table |
| PaymentFlow.MobileStatusFindsInitiatedDonation | organization-platform/app/api/payments/status/route.ts:43-50 | after an initiate answers 200 the donation is processing. A status check with the returned reference then either settles it to a non-pending status with `receipt_generated` matching success, or leaves it unchanged |
| PaymentFlow.CardWebhookSettlesInitiatedDonation | organization-platform/app/api/payments/card/webhook/route.ts:34-52 | with unique receipt numbers, after an accepted card initiate, a signed completion event for the donation's receipt number answers 200. It writes the mapped status, the charge id as reference and a matching receipt flag |
| Donations.FirstMatchAppendMiss | organization-platform/app/api/payments/card/webhook/route.ts:34-38 | a row added at the end that the filter does not select leaves the first match unchanged |
| PaymentFlow.SubmittedReceiptIsNotLookedUp | organization-platform/app/donate/page.tsx:71-79 | the receipt number a submission generates is stored as the payment reference. A lookup by receipt number finds what it found before the submission, never the new row |
| PaymentFlow.AppendedRowMisses | organization-platform/app/api/payments/card/verify/route.ts:49-53 | a table grown by one row without a receipt number answers a lookup by receipt number as before |
| DonateForm.Issues | organization-platform/app/donate/page.tsx:13-19 | each field is reported exactly when its schema rule fails |
| DonateForm.Validate | organization-platform/app/donate/page.tsx:13-19 | an entry comes out exactly when no rule fails, carrying the form's values |
| DonateForm.Submit | organization-platform/app/donate/page.tsx:68-94 | an invalid form changes nothing. A successful insert appends one row with the generated receipt as reference and the column-default status, and resets the form. A failed insert keeps the form and reports the failure |
| DonateForm.InsertRoundTrip | organization-platform/app/donate/page.tsx:68-94 | the inserted row gives back the entry that was validated |
| DonateForm.SubmittedRowsMayClaimReceipt | organization-platform/app/donate/page.tsx:73-79 | a valid card submission is stored with `receipt_generated` set while its status is still pending |
| DonateForm.DefaultFormIsIncomplete | organization-platform/app/donate/page.tsx:40-45 | the default form fails exactly the name, phone and amount rules |
| DonationsAdmin.DisplayReceipt | organization-platform/app/admin/donations/page.tsx:250 | the shown receipt is never empty; it prefers the receipt number, then the reference, and with neither it is `FallbackReceipt`, the `RCP-<YYYYMMDD>-<first five id characters upper-cased>` label laid out in `FallbackShape` |
| DonationsAdmin.FallbackShape | organization-platform/app/admin/donations/page.tsx:69 | the fallback is `RCP-`, eight digits of the creation date, `-`, then up to five upper-cased id characters |
| DonationsAdmin.ReferenceShownWithoutReceiptNumber | organization-platform/app/admin/donations/page.tsx:84 | without a receipt number a donation shows its payment reference |
| DonationsAdmin.TotalIsLeftFold | organization-platform/app/admin/donations/page.tsx:218 | the total is the left-to-right `reduce`: the total of all but the last donation plus the last amount |
| DonationsAdmin.TotalAppend | organization-platform/app/admin/donations/page.tsx:218 | the total of two lists is the sum of their totals |
| DonationsAdmin.TotalBoundsEachAmount | organization-platform/app/admin/donations/page.tsx:218 | with non-negative amounts no donation exceeds the total |
| DonationsAdmin.TotalNonNegative | organization-platform/app/admin/donations/page.tsx:218 | with non-negative amounts the total is non-negative |
| DonationsAdmin.CsvRowOf | organization-platform/app/admin/donations/page.tsx:68-76 | a CSV row carries the donation's fields, with empty text for a missing e-mail or phone |
| DonationsAdmin.ExportCsv | organization-platform/app/admin/donations/page.tsx:67-80 | one row per donation, in list order |
| DonationsAdmin.ExportCsvAppend | organization-platform/app/admin/donations/page.tsx:67-80 | exporting two lists gives the two exports one after the other |
| DonationsAdmin.ExportKeepsTotal | organization-platform/app/admin/donations/page.tsx:67-80 | the amounts in the export add up to the page's total |
| DonationsAdmin.RemoveId | organization-platform/app/admin/donations/page.tsx:57 | `delete().eq('id', id)` removes exactly the rows with that id and keeps every other row as often as it occurred |
| DonationsAdmin.RowsWithId | organization-platform/app/admin/donations/page.tsx:57 | the rows a delete selects all have its id |
| DonationsAdmin.DeleteSplitsTotal | organization-platform/app/admin/donations/page.tsx:57 | the total before a delete is the removed rows' total plus the remaining rows' total |
| DonationsAdmin.HandleDelete | organization-platform/app/admin/donations/page.tsx:53-65 | an unconfirmed delete does nothing. A failed delete keeps the table and reports an error. A successful one removes the id's rows and reports success |
| DonationsAdmin.DeleteRemovesOneRow | organization-platform/app/admin/donations/page.tsx:53-65 | with unique ids, a confirmed and successful delete of a row's id removes exactly one row, and that row is gone |
| OrderIndex.Max | organization-platform/app/admin/slides/page.tsx:67-69 | the maximum bounds every index and is one of them |
| OrderIndex.NextOrderIndex | organization-platform/app/admin/slides/page.tsx:67-69 | a new index is 1 for an empty list, otherwise one above an existing index and above all of them |
| OrderIndex.NextIsLeastAbove | organization-platform/app/admin/slides/page.tsx:67-69 | the new index is the least integer above all existing indexes |
| OrderIndex.AppendKeepsSorted | organization-platform/app/admin/slides/page.tsx:67-69 | appending the new index keeps an ascending list ascending |
| OrderIndex.SuccessiveAllocationsDiffer | organization-platform/app/admin/content/page.tsx:153-157 | two successive insertions never share an index |
| OrderIndex.IndexesOf | organization-platform/app/admin/slides/page.tsx:67 | `list.map(x => x.order_index)`: one index per listed row, in list order |
| Slides.OpenEdit | organization-platform/app/admin/slides/page.tsx:150-159 | opening a slide copies its fields into the form |
| Slides.EditRows | organization-platform/app/admin/slides/page.tsx:52-62 | an edit rewrites the rows with the slide's id and leaves the others |
| Slides.Submit | organization-platform/app/admin/slides/page.tsx:47-87 | an edit rewrites the four form columns of the slide with that id and keeps its order index. An insert appends a row with the new id, the form's image, description, direction and active flag, and order index `maxOrder + 1`: one above the largest listed index, 1 for an empty list. The editor is reset on success and kept on error |
| Slides.EditRoundTrip | organization-platform/app/admin/slides/page.tsx:47-62 | opening a slide and saving it unedited rewrites each row equal to that slide with the same fields, except that a null description is written back as `''` (`slide.description || ''` when the form is filled) |
| Slides.FindIndex | organization-platform/app/admin/slides/page.tsx:104 | the position of the first slide with the id, or -1 when there is none |
| Slides.Swap | organization-platform/app/admin/slides/page.tsx:112-117 | swapping two positions exchanges them and keeps the multiset of slides |
| Slides.Renumber | organization-platform/app/admin/slides/page.tsx:120-123 | one write per listed slide, giving position i the index i |
| Slides.PlanReorder | organization-platform/app/admin/slides/page.tsx:103-137 | moving the first slide up or the last one down writes nothing. An unknown id moved down crashes before writing. An unknown id moved up renumbers the current order. Otherwise the swapped list is renumbered |
| Slides.ApplyWrites | organization-platform/app/admin/slides/page.tsx:125-130 | applying the writes keeps the table's length |
| Slides.ApplyWritesPointwise | organization-platform/app/admin/slides/page.tsx:125-130 | after the writes each row has its last write's index, or is unchanged when no write names it |
| Slides.RenumberLastWrite | organization-platform/app/admin/slides/page.tsx:120-130 | with distinct ids, the last write for the slide at position i is i |
| Slides.RenumberMissesOthers | organization-platform/app/admin/slides/page.tsx:120-123 | the renumbering has no write for an unlisted id |
| Slides.SwapRenumbersTable | organization-platform/app/admin/slides/page.tsx:103-137 | after a move, the two swapped slides exchange indexes and every other listed slide gets its position |
| Slides.ReorderIsAdjacentSwap | organization-platform/app/admin/slides/page.tsx:103-137 | on a list numbered by position, a move exchanges the order indexes of two neighbours and changes nothing else |
| Slides.ReorderLeavesUnlistedRows | organization-platform/app/admin/slides/page.tsx:125-130 | rows that are not in the list are never written |
| Content.EditRows | organization-platform/app/admin/content/page.tsx:138-147 | an edit rewrites the text and image of the rows with the item's id and leaves the others |
| Content.AddOrUpdate | organization-platform/app/admin/content/page.tsx:133-172 | empty text does nothing. An editor with an id updates that item's text and image. Without an id it appends an item with the new id, the form's text and image, and order index `maxOrder + 1`: one above the largest listed index, 1 for an empty list. On success the editor is cleared, on error kept and the failure reported |
| Content.EditItem | organization-platform/app/admin/content/page.tsx:174-178 | editing copies the item's id, text and image into the editor |
| Content.CancelEdit | organization-platform/app/admin/content/page.tsx:180-183 | cancelling clears every editor field |
| Content.EditSaveRoundTrip | organization-platform/app/admin/content/page.tsx:133-178 | opening an item and saving it unedited keeps the table's length and rewrites each row equal to that item with the same fields, except that a null image is written back as `''` (`item.image_url || ''` when the form is filled) |
| Content.EmptyIdSavesACopy | organization-platform/app/admin/content/page.tsx:138 | an item whose id is empty is saved as a new item |
| Content.LoadStatement | organization-platform/app/admin/content/page.tsx:47-66 | the page shows the first statement row, or none |
| Content.SaveStatement | organization-platform/app/admin/content/page.tsx:75-102 | saving updates the loaded row by its id, or inserts when nothing was loaded |
| Content.SaveThenLoad | organization-platform/app/admin/content/page.tsx:47-102 | after a save, loading shows the saved text |
| Content.SecondSaveUpdates | organization-platform/app/admin/content/page.tsx:75-102 | saving again after reloading adds no row |
| Applications.ParseKind | organization-platform/app/admin/applications/page.tsx:84-98 | only `staff`, `volunteer` and `partner` name an application kind |
| Applications.WithApplications | organization-platform/app/admin/applications/page.tsx:80-95 | replacing one kind's application table leaves the other five tables |
| Applications.WithMembers | organization-platform/app/admin/applications/page.tsx:80-95 | replacing one kind's main table leaves the other five tables |
| Applications.Find | organization-platform/app/admin/applications/page.tsx:87 | the application found is one of the loaded ones and has the id; none exactly when no loaded one has it |
| Applications.MemberRecord | organization-platform/app/admin/applications/page.tsx:106-113 | the main-table row drops `is_approved`, is active, carries the approval time and keeps every other field |
| Applications.MarkApproved | organization-platform/app/admin/applications/page.tsx:122 | exactly the rows with the id become approved; the rest are kept |
| Applications.Approve | organization-platform/app/admin/applications/page.tsx:76-138 | an invalid type or an id not among the loaded applications alerts and writes nothing. A failed insert writes nothing. A successful insert adds the member row to that kind's main table only, then marks the application approved or reports the failed status update |
| Applications.RegisterDirect | organization-platform/app/admin/applications/page.tsx:140-168 | a direct registration appends one active row to the kind's main table and changes nothing else, or nothing at all on failure |
| Applications.FilterApproved | organization-platform/app/admin/applications/page.tsx:170-184 | the filter keeps only applications in the requested approval state, and every listed application in that state |
| Applications.FilterApprovedExact | organization-platform/app/admin/applications/page.tsx:170-184 | each application in the requested state is kept exactly as often as it occurs, any other not at all, so the counters count exactly those applications |
| Applications.FilterPartition | organization-platform/app/admin/applications/page.tsx:170-184 | approved and pending applications together are all applications |
| Applications.CountsAddUp | organization-platform/app/admin/applications/page.tsx:170-184 | the counts shown for approved and pending add up to the total |
| Applications.MarkMovesPending | organization-platform/app/admin/applications/page.tsx:122 | approving moves the pending rows with the id from the pending count to the approved count |
| Applications.FoundPendingCounts | organization-platform/app/admin/applications/page.tsx:170-184 | a pending application with the id is counted among the pending |
| Applications.ApprovingPendingRaisesApproved | organization-platform/app/admin/applications/page.tsx:76-138 | approving a pending application raises the approved count by the rows with its id |
| Analytics.Paths | organization-platform/app/admin/analytics/page.tsx:67-70 | the paths of the visits that have one; a path is listed exactly when some visit has it |
| Analytics.AbsentOccursNever | organization-platform/app/admin/analytics/page.tsx:65-76 | a path not among the visits is counted zero times |
| Analytics.Find | organization-platform/app/admin/analytics/page.tsx:71 | the tally entry found has the path, and none exactly when no entry has it |
| Analytics.BumpEntries | organization-platform/app/admin/analytics/page.tsx:71 | counting a visit adds one to its path's entry, or a new entry with count one, and keeps paths distinct |
| Analytics.OccurrencesSnoc | organization-platform/app/admin/analytics/page.tsx:67-72 | one more visit adds one occurrence of its path |
| Analytics.TallyCounts | organization-platform/app/admin/analytics/page.tsx:66-72 | the tally has each visited path once, with its exact number of visits, and nothing else |
| Analytics.Insert | organization-platform/app/admin/analytics/page.tsx:73-74 | inserting keeps every entry and adds one |
| Analytics.InsertSorted | organization-platform/app/admin/analytics/page.tsx:73-74 | inserting into a list sorted by descending count keeps it sorted |
| Analytics.SortByCount | organization-platform/app/admin/analytics/page.tsx:73-74 | the sort is a permutation of its input |
| Analytics.SortSorted | organization-platform/app/admin/analytics/page.tsx:73-74 | the sort orders by descending count |
| Analytics.DistinctOnce | organization-platform/app/admin/analytics/page.tsx:73-74 | in a list with distinct paths each entry occurs once |
| Analytics.SortDistinct | organization-platform/app/admin/analytics/page.tsx:73-74 | the sort keeps paths distinct |
| Analytics.PageViews | organization-platform/app/admin/analytics/page.tsx:65-76 | `getPageViews` shows ten entries, or one per tallied path when there are fewer |
| Analytics.PageViewsCounts | organization-platform/app/admin/analytics/page.tsx:65-76 | at most ten distinct paths, by descending count, each with its exact number of visits |
| Analytics.TopTenIsTop | organization-platform/app/admin/analytics/page.tsx:65-76 | a visited path left out has no more visits than every path shown |
| Analytics.FewPathsAllShown | organization-platform/app/admin/analytics/page.tsx:73-75 | with ten or fewer distinct paths every visited path is shown |
| Analytics.RecentActivity | organization-platform/app/admin/analytics/page.tsx:78-80 | the first twenty visits, in list order |
| Analytics.DistinctVisitors | organization-platform/app/admin/analytics/page.tsx:51 | the distinct visitor ids, none more than there are visits |
| Analytics.SetOfMapSize | organization-platform/app/admin/analytics/page.tsx:51 | a set built from a list is no larger than the list |
| Analytics.AmountsOf | organization-platform/app/admin/analytics/page.tsx:52 | the amounts of the donations, one each, in order |
| Analytics.DashboardTotalMatchesDonationsPage | organization-platform/app/admin/analytics/page.tsx:52 | the dashboard's sum of the loaded amounts equals the donations page total for the same table |
| Analytics.DashboardShowsDonationsPageTotal | organization-platform/app/admin/analytics/page.tsx:52-58 | the `totalDonations` the dashboard's statistics show, both as written and corrected, equals the donations page total for the same table |
| Analytics.FetchStatsAsWritten | organization-platform/app/admin/analytics/page.tsx:43-63 | the statistics with the unique-visitor count as written, which reads the state from before the load and so is 0; page views and contacts default to 0, and the donation total is the loaded amounts' sum or 0 |
| Analytics.FetchStats | organization-platform/app/admin/analytics/page.tsx:43-63 | the statistics with the number of distinct visitors among the loaded visits (at least one when any visit loaded); page views and contacts default to 0, and the donation total is the loaded amounts' sum or 0 |
| Analytics.UniqueVisitorsUndercount | organization-platform/app/admin/analytics/page.tsx:51 | with one visit loaded, the count as written is 0 while the corrected one is 1 |
| AppStore.SetTheme | organization-platform/lib/store.ts:46-55 | each theme key given is replaced and each key not given is kept |
| AppStore.SetThemeTwice | organization-platform/lib/store.ts:46-55 | two partial updates equal one update with their merge, the later winning |
| AppStore.SetThemeExtremes | organization-platform/lib/store.ts:46-55 | an empty update changes nothing and a full one replaces the theme |
| AppStore.SetAdmin | organization-platform/lib/store.ts:57-64 | the admin is stored, and the signed-in flag is set exactly when there is one |
| AppStore.ToggleSidebar | organization-platform/lib/store.ts:66-71 | the sidebar flag is flipped and nothing else changes |
| AppStore.ToggleTwice | organization-platform/lib/store.ts:66-71 | toggling twice restores the state |
| AppStore.ShowNotification | organization-platform/lib/store.ts:79-86 | the notification is visible with the message and type, and nothing else changes |
| AppStore.HideNotification | organization-platform/lib/store.ts:87-94 | the notification returns to the initial hidden one, with empty message and type info, and nothing else changes |
| AppStore.HideUndoesShow | organization-platform/lib/store.ts:79-94 | showing and then hiding is the same as hiding alone: no trace of the message is left |
| AppStore.Partialize | organization-platform/lib/store.ts:96-102 | only the theme, the admin and the signed-in flag are persisted |
| AppStore.Rehydrate | organization-platform/lib/store.ts:96-103 | merging a stored value over a state gives back exactly the stored keys and keeps the sidebar and notification of that state |
| AppStore.ReloadRoundTrip | organization-platform/lib/store.ts:96-102 | a reload restores the persisted part and resets the sidebar and notification |
| AppStore.SignInStaysConsistent | organization-platform/lib/store.ts:57-102 | after any sequence of actions, reloads included, the signed-in flag is set exactly when an admin is stored |
| AppStore.InitialIsSignedOut | organization-platform/lib/store.ts:45-78 | the initial state is signed out with no admin and the sidebar open |
| FileUpload.AcceptString | organization-platform/components/FileUpload.tsx:31-35 | the file-input filter lists the prefixes the type check accepts |
| FileUpload.IsValidFileType | organization-platform/components/FileUpload.tsx:37-44 | a type is accepted exactly when it starts with an accepted prefix |
| FileUpload.FilterMatchesCheck | organization-platform/components/FileUpload.tsx:31-44 | the picker's filter and the type check accept the same types |
| FileUpload.GetFileType | organization-platform/components/FileUpload.tsx:46-50 | images and videos by prefix, no kind otherwise |
| FileUpload.ValidFilesHaveAKind | organization-platform/components/FileUpload.tsx:37-50 | every accepted file gets a media kind |
| FileUpload.UploadPath | organization-platform/components/FileUpload.tsx:89-90 | the path starts with the random text and a dash and ends with a dot and the name's extension |
| FileUpload.UploadPathShape | organization-platform/components/FileUpload.tsx:89-90 | the storage path is the random text, a dash, the time in decimal digits, a dot and the extension: the text after the name's last dot, or the whole name when it has none |
| FileUpload.HandleFileSelect | organization-platform/components/FileUpload.tsx:52-116 | no file does nothing. A wrong type or an oversize file is reported and nothing is uploaded. Otherwise the file goes to a fresh path and the kind is set. On success the preview and the parent get the public URL. On failure the preview returns to the current URL and an error is shown |
| FileUpload.TooLarge | organization-platform/components/FileUpload.tsx:66-67 | a file is refused exactly when its size in bytes divided by 1024 * 1024, as a real number, exceeds the limit in MB |
| FileUpload.SizeLimitIsInclusive | organization-platform/components/FileUpload.tsx:65-70 | a file of exactly the limit is accepted and one byte more is refused |
| FileUpload.HandleRemove | organization-platform/components/FileUpload.tsx:118-125 | removing clears the preview and kind and reports an empty URL |
| FileUpload.FailedUploadAfterRemoveShowsCurrent | organization-platform/components/FileUpload.tsx:109-125 | a failed upload after a remove shows the current URL again, not the emptied preview |

## Left out

- Network I/O, OAuth token exchange and the provider's HTTP wire format: each provider reply is an input value. Each provider error is its message.
- Request bodies that are not JSON. The outer `catch` of the initiate, status, card initiate and verify routes answers 500 for them. The webhook's unparseable body is modelled.
- JSON values of the wrong type (a number where a string is expected, and so on): request fields are optional strings or integers.
- PostgREST's coercion of filter values. A filter value the routes read from an undefined field matches no row.
- Database transport errors on lookups and updates: every update succeeds, except where a page checks `error` and the outcome is an input. The slides reorder ignores the results of its writes, and so does the model.
- The e-mail format check of the donation schema is a parameter predicate, not a regular expression.
- Locale formatting: `toLocaleString` of amounts and dates, the CSV's `Donated At` column, and the notification texts built with `formatCurrency`.
- `toUpperCase` beyond ASCII letters.
- Concurrency: overlapping requests, overlapping page actions, and the race between the `FileReader` preview and the upload.
- Floating-point values: amounts, file sizes and `maxSizeMB` are integers.
- Parsing a date string into an instant: `created_at` is given as an instant.
- `updated_at` columns and the loading or processing flags pages use only for display.
- The order in which pages load lists (by `created_at` or `order_index`): each list is given in the order the page received it.
- The order of `Object.entries` for integer-like keys in the page-view tally: entries are kept in first-seen order.
- DonateForm.Issues: the `min(2)` name and `min(10)` phone rules count characters (Unicode scalar values), while zod counts UTF-16 code units; a name or phone with characters outside the Basic Multilingual Plane can pass on the page and fail in the model, because strings here are sequences of characters, not UTF-16 units.
- Analytics.SortByCount: stability of the sort among equal counts is not proved, only sortedness, the permutation and distinct paths.
- AppStore.SetTheme: a key given explicitly as `undefined` is treated as not given.
- AppStore.SetAdmin: the argument is an admin or `null`; `setAdmin(undefined)`, which would set the signed-in flag with no admin, is not modelled.
- The delete actions of the slides and content pages: they are single `delete().eq('id', id)` calls and `DonationsAdmin.RemoveId` states the same filter.
- Rendering, routing and authentication guards of the admin layout.
- The receipt window of the donations page beyond the receipt number it shows.

## Findings

| source | as written | input that shows it | evidently intended | confidence | as-written member | corrected member |
|---|---|---|---|---|---|---|
| organization-platform/app/admin/analytics/page.tsx:51 | unique visitors are counted over the `analytics` state captured when the effect ran, which is still the empty initial list | one loaded visit: the dashboard shows 0 unique visitors (lemma Analytics.UniqueVisitorsUndercount) | the number of distinct `visitor_id`s among the visits just loaded | not executed | Analytics.FetchStatsAsWritten | Analytics.FetchStats |

=== FILE: admin_donations.dfy ===
/** The admin donations page: the receipt label shown in the table, on the
    printed receipt and in the CSV export; the running total; the CSV rows;
    and deletion. */
module DonationsAdmin {
  import opened Wrappers
  import opened JsText
  import opened JsDate
  import opened Donations

  /** The label for a donation that has neither a receipt number nor a payment
      reference: `RCP-`, the creation date as `YYYYMMDD`, `-`, and the first
      five characters of the id in upper case. */
  function FallbackReceipt(d: Donation): string
  {
    "RCP-" + CompactDate(d.createdAt) + "-" + UpperAscii(Prefix(d.id, 5))
  }

  /** `receipt_number || payment_reference || fallback`, the one expression used
      at all three places the page shows a receipt number. */
  function DisplayReceipt(d: Donation): (r: string)
    ensures r != ""
    ensures IsTruthyText(d.receiptNumber) ==> r == d.receiptNumber.value
    ensures !IsTruthyText(d.receiptNumber) && IsTruthyText(d.paymentReference) ==> r == d.paymentReference.value
    // with neither, the `RCP-<date>-<id>` label whose layout FallbackShape gives
    ensures !IsTruthyText(d.receiptNumber) && !IsTruthyText(d.paymentReference) ==> r == FallbackReceipt(d)
    ensures r == d.receiptNumber.GetOr("") || r == d.paymentReference.GetOr("") || StartsWith(r, "RCP-")
  {
    OrElse(d.receiptNumber, OrElse(d.paymentReference, FallbackReceipt(d)))
  }

  /** For a four-digit year the fallback is `RCP-YYYYMMDD-XXXXX`: thirteen
      characters of prefix and date, then at most five of the id. */
  lemma FallbackShape(d: Donation)
    requires ValidInstant(d.createdAt) && 0 <= d.createdAt.year <= 9999
    ensures var c := d.createdAt;
            FallbackReceipt(d) == "RCP-" + ZeroPad(c.year, 4) + ZeroPad(c.month, 2) + ZeroPad(c.day, 2)
                                  + "-" + UpperAscii(Prefix(d.id, 5))
    ensures |FallbackReceipt(d)| == 13 + (if |d.id| < 5 then |d.id| else 5)
    ensures FallbackReceipt(d)[12] == '-' && AllDigits(FallbackReceipt(d)[4..12])
    ensures DecimalValue(FallbackReceipt(d)[4..12]) == d.createdAt.year * 10000 + d.createdAt.month * 100 + d.createdAt.day
  {
    var c := d.createdAt;
    var cd := CompactDate(c);
    var id5 := UpperAscii(Prefix(d.id, 5));
    CompactDateIsYyyyMmDd(c);
    assert FallbackReceipt(d) == "RCP-" + cd + "-" + id5;
    RegroupLabel(ZeroPad(c.year, 4), ZeroPad(c.month, 2), ZeroPad(c.day, 2), id5);
    assert |id5| == if |d.id| < 5 then |d.id| else 5;
    LabelParts(cd, id5);
  }

  lemma RegroupLabel(y: string, m: string, dd: string, id5: string)
    ensures "RCP-" + (y + m + dd) + "-" + id5 == "RCP-" + y + m + dd + "-" + id5
  {
  }

  /** Where the date and the id sit in `RCP-<date>-<id>` for an eight-character date. */
  lemma LabelParts(cd: string, id5: string)
    requires |cd| == 8
    ensures var f := "RCP-" + cd + "-" + id5;
            |f| == 13 + |id5| && f[12] == '-' && f[4..12] == cd
  {
    var head := "RCP-" + cd;
    var f := head + "-" + id5;
    assert f[..12] == head && head[4..] == cd;
  }

  /** A donation that went through a payment route shows the reference the
      route wrote, unless it already carries a receipt number. */
  lemma ReferenceShownWithoutReceiptNumber(d: Donation, reference: string)
    requires !IsTruthyText(d.receiptNumber) && reference != ""
    ensures DisplayReceipt(d.(paymentReference := Some(reference))) == reference
  {
  }

  // ---------------------------------------------------------------------------
  // Total: donations.reduce((sum, d) => sum + d.amount, 0)

  /** Summed from the right; `TotalIsLeftFold` relates it to the left fold
      `reduce` performs. */
  function Total(ds: Table): int
  {
    if ds == [] then 0 else ds[0].amount + Total(ds[1..])
  }

  /** The total is what `reduce` computes: 0 for no donations, otherwise the
      total of all but the last plus the last amount. */
  lemma TotalIsLeftFold(ds: Table)
    requires ds != []
    ensures Total(ds) == Total(ds[..|ds| - 1]) + ds[|ds| - 1].amount
  {
    var n := |ds| - 1;
    assert ds == ds[..n] + [ds[n]];
    TotalAppend(ds[..n], [ds[n]]);
  }

  /** The total of two lists together is the sum of their totals. */
  lemma {:induction false} TotalAppend(a: Table, b: Table)
    ensures Total(a + b) == Total(a) + Total(b)
  {
    if a == [] {
      assert a + b == b;
    } else {
      assert (a + b)[1..] == a[1..] + b;
      TotalAppend(a[1..], b);
    }
  }

  /** With no negative amounts the total bounds every single amount. */
  lemma {:induction false} TotalBoundsEachAmount(ds: Table, i: nat)
    requires i < |ds|
    requires forall j :: 0 <= j < |ds| ==> ds[j].amount >= 0
    ensures ds[i].amount <= Total(ds)
  {
    if i > 0 {
      assert forall j :: 0 <= j < |ds[1..]| ==> ds[1..][j].amount >= 0 by {
        forall j | 0 <= j < |ds[1..]|
          ensures ds[1..][j].amount >= 0
        {
          assert ds[1..][j] == ds[j + 1];
        }
      }
      assert ds[1..][i - 1] == ds[i];
      TotalBoundsEachAmount(ds[1..], i - 1);
    } else {
      TotalNonNegative(ds[1..]);
    }
  }

  lemma {:induction false} TotalNonNegative(ds: Table)
    requires forall j :: 0 <= j < |ds| ==> ds[j].amount >= 0
    ensures Total(ds) >= 0
  {
    if ds != [] {
      assert forall j :: 0 <= j < |ds[1..]| ==> ds[1..][j].amount >= 0 by {
        forall j | 0 <= j < |ds[1..]|
          ensures ds[1..][j].amount >= 0
        {
          assert ds[1..][j] == ds[j + 1];
        }
      }
      TotalNonNegative(ds[1..]);
    }
  }

  // ---------------------------------------------------------------------------
  // CSV export

  /** One exported line; the `Donated At` column is locale text and is not modelled. */
  datatype CsvRow = CsvRow(receiptNumber: string, donorName: string, email: string, phone: string, amount: int, paymentMethod: string)

  function CsvRowOf(d: Donation): (r: CsvRow)
    ensures r.receiptNumber == DisplayReceipt(d)
    ensures r.donorName == d.donorName && r.amount == d.amount && r.paymentMethod == d.paymentMethod
    ensures d.donorEmail.None? ==> r.email == ""
    ensures d.donorEmail.Some? ==> r.email == d.donorEmail.value
    ensures d.donorPhone.None? ==> r.phone == ""
    ensures d.donorPhone.Some? ==> r.phone == d.donorPhone.value
  {
    CsvRow(DisplayReceipt(d), d.donorName, OrElse(d.donorEmail, ""), OrElse(d.donorPhone, ""), d.amount, d.paymentMethod)
  }

  /** `handleExportCSV`: one line per listed donation, in list order. */
  function ExportCsv(ds: Table): (r: seq<CsvRow>)
    ensures |r| == |ds|
    ensures forall i :: 0 <= i < |ds| ==> r[i] == CsvRowOf(ds[i])
  {
    if ds == [] then [] else [CsvRowOf(ds[0])] + ExportCsv(ds[1..])
  }

  /** Exporting two lists together is exporting each and joining the results. */
  lemma ExportCsvAppend(a: Table, b: Table)
    ensures ExportCsv(a + b) == ExportCsv(a) + ExportCsv(b)
  {
    forall i | 0 <= i < |a + b|
      ensures ExportCsv(a + b)[i] == (ExportCsv(a) + ExportCsv(b))[i]
    {
      if i < |a| {
        assert (a + b)[i] == a[i];
      } else {
        assert (a + b)[i] == b[i - |a|];
      }
    }
  }

  /** The CSV amounts add up to the displayed total. */
  lemma {:induction false} ExportKeepsTotal(ds: Table)
    ensures CsvTotal(ExportCsv(ds)) == Total(ds)
  {
    if ds != [] {
      assert ExportCsv(ds)[1..] == ExportCsv(ds[1..]);
      ExportKeepsTotal(ds[1..]);
    }
  }

  function CsvTotal(rs: seq<CsvRow>): int
  {
    if rs == [] then 0 else rs[0].amount + CsvTotal(rs[1..])
  }

  // ---------------------------------------------------------------------------
  // handleDelete

  /** `delete().eq('id', id)`: the rows with that id go, every other row stays
      as often as it was there. */
  function RemoveId(t: Table, id: string): (r: Table)
    ensures |r| + CountMatches(t, ById(id)) == |t|
    ensures forall d :: d in r ==> d in t && d.id != id
    ensures forall d :: d in t && d.id != id ==> d in r
    ensures forall d :: multiset(r)[d] == if d.id == id then 0 else multiset(t)[d]
  {
    assert t != [] ==> t == [t[0]] + t[1..];
    if t == [] then []
    else if t[0].id == id then RemoveId(t[1..], id)
    else [t[0]] + RemoveId(t[1..], id)
  }

  /** The rows with a given id, in order. */
  function RowsWithId(t: Table, id: string): (r: Table)
    ensures forall d :: d in r ==> d in t && d.id == id
  {
    if t == [] then []
    else if t[0].id == id then [t[0]] + RowsWithId(t[1..], id)
    else RowsWithId(t[1..], id)
  }

  /** Deleting lowers the total by exactly the amounts of the deleted rows. */
  lemma {:induction false} DeleteSplitsTotal(t: Table, id: string)
    ensures Total(t) == Total(RemoveId(t, id)) + Total(RowsWithId(t, id))
  {
    if t != [] {
      DeleteSplitsTotal(t[1..], id);
    }
  }

  datatype Notice = Deleted | DeleteFailed

  datatype DeleteOutcome = DeleteOutcome(table: Table, notice: Option<Notice>)

  /** `handleDelete(id)`: nothing happens unless the admin confirms; on success
      the rows with that id are gone and the list is reloaded from the table. */
  function HandleDelete(t: Table, id: string, confirmed: bool, deleteOk: bool): (o: DeleteOutcome)
    ensures !confirmed ==> o == DeleteOutcome(t, None)
    ensures confirmed && !deleteOk ==> o == DeleteOutcome(t, Some(DeleteFailed))
    ensures confirmed && deleteOk ==> o.notice == Some(Deleted)
                                      && (forall d :: d in o.table <==> d in t && d.id != id)
                                      && |o.table| == |t| - CountMatches(t, ById(id))
  {
    if !confirmed then DeleteOutcome(t, None)
    else if deleteOk then DeleteOutcome(RemoveId(t, id), Some(Deleted))
    else DeleteOutcome(t, Some(DeleteFailed))
  }

  /** With unique ids, deleting a listed donation removes exactly that one row. */
  lemma DeleteRemovesOneRow(t: Table, i: nat)
    requires UniqueIds(t) && i < |t|
    ensures |HandleDelete(t, t[i].id, true, true).table| == |t| - 1
    ensures t[i] !in HandleDelete(t, t[i].id, true, true).table
  {
    UniqueIdCountsOnce(t, i);
  }
}

=== FILE: analytics.dfy ===
/** The admin analytics dashboard: the most visited pages, the recent visits,
    and the headline numbers computed when the page mounts. */
module Analytics {
  import opened Wrappers
  import opened Donations
  import DonationsAdmin
  import JsText

  /** One row of `analytics`, with the columns the dashboard reads. */
  datatype Visit = Visit(id: string, pagePath: Option<string>, visitorId: Option<string>, actionType: Option<string>)

  // ---------------------------------------------------------------------------
  // getPageViews

  datatype PathCount = PathCount(path: string, count: nat)

  /** The paths of the visits that have one, in order. */
  function Paths(vs: seq<Visit>): (ps: seq<string>)
    ensures |ps| <= |vs|
    ensures forall p :: p in ps <==> exists i :: 0 <= i < |vs| && vs[i].pagePath == Some(p)
  {
    if vs == [] then []
    else
      var rest := Paths(vs[..|vs| - 1]);
      assert forall i :: 0 <= i < |vs| - 1 ==> vs[..|vs| - 1][i] == vs[i];
      match vs[|vs| - 1].pagePath
      case Some(p) => rest + [p]
      case None => rest
  }

  /** How often `p` occurs in `ps`. */
  function Occurrences(ps: seq<string>, p: string): nat
  {
    if ps == [] then 0
    else Occurrences(ps[..|ps| - 1], p) + (if ps[|ps| - 1] == p then 1 else 0)
  }

  lemma {:induction false} AbsentOccursNever(ps: seq<string>, p: string)
    requires p !in ps
    ensures Occurrences(ps, p) == 0
  {
    if ps != [] {
      assert p !in ps[..|ps| - 1];
      AbsentOccursNever(ps[..|ps| - 1], p);
    }
  }

  predicate DistinctPaths(t: seq<PathCount>)
  {
    forall i, j :: 0 <= i < j < |t| ==> t[i].path != t[j].path
  }

  /** The position of `p` in a tally, or `None`. */
  function Find(t: seq<PathCount>, p: string): (r: Option<nat>)
    ensures r.Some? ==> r.value < |t| && t[r.value].path == p
    ensures r.None? <==> forall i :: 0 <= i < |t| ==> t[i].path != p
  {
    if t == [] then None
    else if t[|t| - 1].path == p then Some(|t| - 1)
    else Find(t[..|t| - 1], p)
  }

  /** `pageViews[path] = (pageViews[path] || 0) + 1`: count one more visit,
      adding the path at the end when it is new. */
  function Bump(t: seq<PathCount>, p: string): seq<PathCount>
  {
    match Find(t, p)
    case Some(i) => t[i := PathCount(p, t[i].count + 1)]
    case None => t + [PathCount(p, 1)]
  }

  /** The object `pageViews` after the loop, as its entries in insertion order. */
  function Tally(ps: seq<string>): seq<PathCount>
  {
    if ps == [] then [] else Bump(Tally(ps[..|ps| - 1]), ps[|ps| - 1])
  }

  /** Counting one more occurrence of `p`: its entry, old or new, goes up by one. */
  lemma BumpEntries(t: seq<PathCount>, p: string)
    requires DistinctPaths(t)
    ensures var r := Bump(t, p);
            && (forall i :: 0 <= i < |r| ==> r[i].path == p || (i < |t| && r[i] == t[i]))
            && (forall i :: 0 <= i < |t| ==> r[i].path == t[i].path)
            && (forall i :: 0 <= i < |r| && r[i].path == p ==>
                  r[i].count == (if i < |t| then t[i].count else 0) + 1)
            && |r| >= |t| && (|r| > |t| ==> |r| == |t| + 1 && forall i :: 0 <= i < |t| ==> t[i].path != p)
            && exists i :: 0 <= i < |r| && r[i].path == p
  {
    match Find(t, p)
    case Some(k) =>
      var r := t[k := PathCount(p, t[k].count + 1)];
      assert r == Bump(t, p);
      assert r[k].path == p;
    case None =>
      var r := t + [PathCount(p, 1)];
      assert r == Bump(t, p);
      assert r[|t|].path == p;
  }

  lemma OccurrencesSnoc(front: seq<string>, p: string, q: string)
    ensures Occurrences(front + [p], q) == Occurrences(front, q) + (if p == q then 1 else 0)
  {
    assert (front + [p])[..|front|] == front;
  }

  /** The loop counts correctly: each path of `ps` has exactly one entry, no
      other path has one, and each entry's count is the number of times its
      path occurs. */
  lemma {:induction false} TallyCounts(ps: seq<string>)
    ensures DistinctPaths(Tally(ps))
    ensures forall i :: 0 <= i < |Tally(ps)| ==> Tally(ps)[i].path in ps && Tally(ps)[i].count == Occurrences(ps, Tally(ps)[i].path)
    ensures forall p :: p in ps ==> exists i :: 0 <= i < |Tally(ps)| && Tally(ps)[i].path == p
  {
    if ps != [] {
      var front := ps[..|ps| - 1];
      var p := ps[|ps| - 1];
      assert ps == front + [p];
      var before := Tally(front);
      var t := Tally(ps);
      assert t == Bump(before, p);
      TallyCounts(front);
      BumpEntries(before, p);
      forall i, j | 0 <= i < j < |t|
        ensures t[i].path != t[j].path
      {
        if j >= |before| {
          assert t[j].path == p;
        } else if t[i].path == p || t[j].path == p {
          assert i < |before|;
        }
      }
      forall i | 0 <= i < |t|
        ensures t[i].path in ps && t[i].count == Occurrences(ps, t[i].path)
      {
        OccurrencesSnoc(front, p, t[i].path);
        if t[i].path == p {
          if i >= |before| {
            AbsentOccursNever(front, p);
          }
        } else {
          assert t[i] == before[i];
        }
      }
      forall q | q in ps
        ensures exists i :: 0 <= i < |t| && t[i].path == q
      {
        if q != p {
          assert q in front;
          var i :| 0 <= i < |before| && before[i].path == q;
          assert t[i].path == q;
        }
      }
    }
  }

  predicate SortedByCount(t: seq<PathCount>)
  {
    forall i, j :: 0 <= i < j < |t| ==> t[i].count >= t[j].count
  }

  /** Places `x` before the first entry whose count is not above its own. */
  function Insert(x: PathCount, ys: seq<PathCount>): (r: seq<PathCount>)
    ensures |r| == |ys| + 1
    ensures multiset(r) == multiset(ys) + multiset{x}
  {
    if ys == [] then [x]
    else if ys[0].count <= x.count then [x] + ys
    else
      assert ys == [ys[0]] + ys[1..];
      [ys[0]] + Insert(x, ys[1..])
  }

  lemma {:induction false} InsertSorted(x: PathCount, ys: seq<PathCount>)
    requires SortedByCount(ys)
    ensures SortedByCount(Insert(x, ys))
  {
    if ys != [] && ys[0].count > x.count {
      var rest := Insert(x, ys[1..]);
      InsertSorted(x, ys[1..]);
      forall e | e in rest
        ensures e.count <= ys[0].count
      {
        assert e in multiset(rest);
        if e != x {
          assert e in ys[1..];
        }
      }
      assert Insert(x, ys) == [ys[0]] + rest;
    }
  }

  /** `sort((a, b) => b[1] - a[1])`: by count, largest first. */
  function SortByCount(t: seq<PathCount>): (r: seq<PathCount>)
    ensures |r| == |t|
    ensures multiset(r) == multiset(t)
  {
    if t == [] then []
    else
      assert t == [t[0]] + t[1..];
      Insert(t[0], SortByCount(t[1..]))
  }

  lemma {:induction false} SortSorted(t: seq<PathCount>)
    ensures SortedByCount(SortByCount(t))
  {
    if t != [] {
      SortSorted(t[1..]);
      InsertSorted(t[0], SortByCount(t[1..]));
    }
  }

  /** A sequence with distinct paths has no entry twice, so its multiset holds each entry once. */
  lemma {:induction false} DistinctOnce(t: seq<PathCount>, x: PathCount)
    requires DistinctPaths(t) && x in t
    ensures multiset(t)[x] == 1
  {
    if t[0] == x {
      assert t == [x] + t[1..];
      assert x !in t[1..] by {
        forall m | 0 <= m < |t[1..]|
          ensures t[1..][m] != x
        {
          assert t[1..][m] == t[m + 1];
        }
      }
    } else {
      assert t == [t[0]] + t[1..];
      assert DistinctPaths(t[1..]) by {
        forall a, b | 0 <= a < b < |t[1..]|
          ensures t[1..][a].path != t[1..][b].path
        {
          assert t[1..][a] == t[a + 1] && t[1..][b] == t[b + 1];
        }
      }
      DistinctOnce(t[1..], x);
    }
  }

  /** An entry found at two positions occurs at least twice. */
  lemma TwiceInMultiset(s: seq<PathCount>, i: nat, j: nat)
    requires i < j < |s| && s[i] == s[j]
    ensures multiset(s)[s[i]] >= 2
  {
    assert s == s[..j] + [s[j]] + s[j + 1..];
    assert s[..j][i] == s[i];
  }

  /** Two entries of a list with distinct paths that share a path are the same entry. */
  lemma SamePathSameEntry(t: seq<PathCount>, a: PathCount, b: PathCount)
    requires DistinctPaths(t) && a in multiset(t) && b in multiset(t) && a.path == b.path
    ensures a == b
  {
    var ka :| 0 <= ka < |t| && t[ka] == a;
    var kb :| 0 <= kb < |t| && t[kb] == b;
    assert !(ka < kb) && !(kb < ka);
  }

  /** Sorting keeps paths distinct: equal entries at two places would occur
      twice in the multiset. */
  lemma SortDistinct(t: seq<PathCount>)
    requires DistinctPaths(t)
    ensures DistinctPaths(SortByCount(t))
  {
    var s := SortByCount(t);
    forall i, j | 0 <= i < j < |s|
      ensures s[i].path != s[j].path
    {
      assert s[i] in multiset(t) && s[j] in multiset(t);
      if s[i].path == s[j].path {
        SamePathSameEntry(t, s[i], s[j]);
        TwiceInMultiset(s, i, j);
        DistinctOnce(t, s[i]);
      }
    }
  }

  const TopPages := 10

  /** `getPageViews`: the ten most visited paths with their counts, largest first. */
  function PageViews(vs: seq<Visit>): (r: seq<PathCount>)
    // ten entries, or every tallied path when there are fewer
    ensures |r| <= TopPages
    ensures |r| == TopPages || |r| == |Tally(Paths(vs))|
  {
    JsText.Prefix(SortByCount(Tally(Paths(vs))), TopPages)
  }

  /** At most ten entries, largest count first, each path once and counted
      exactly, and only paths that were visited. */
  lemma PageViewsCounts(vs: seq<Visit>)
    ensures var r := PageViews(vs);
            && |r| <= TopPages
            && SortedByCount(r)
            && DistinctPaths(r)
            && forall i :: 0 <= i < |r| ==> r[i].path in Paths(vs) && r[i].count == Occurrences(Paths(vs), r[i].path)
  {
    var ps := Paths(vs);
    var t := Tally(ps);
    var s := SortByCount(t);
    TallyCounts(ps);
    SortSorted(t);
    SortDistinct(t);
    var r := PageViews(vs);
    assert r == s[..|r|];
    PrefixKeepsOrder(s, |r|);
    forall i | 0 <= i < |r|
      ensures r[i].path in ps && r[i].count == Occurrences(ps, r[i].path)
    {
      assert r[i] == s[i];
      assert s[i] in multiset(t);
      var k :| 0 <= k < |t| && t[k] == s[i];
    }
  }

  /** A prefix of a sorted list with distinct paths is both too. */
  lemma PrefixKeepsOrder(s: seq<PathCount>, n: nat)
    requires n <= |s| && SortedByCount(s) && DistinctPaths(s)
    ensures SortedByCount(s[..n]) && DistinctPaths(s[..n])
  {
    assert forall i :: 0 <= i < n ==> s[..n][i] == s[i];
  }

  /** Nothing left out of the top ten was visited more than anything in it. */
  lemma TopTenIsTop(vs: seq<Visit>, p: string)
    requires p in Paths(vs)
    requires forall i :: 0 <= i < |PageViews(vs)| ==> PageViews(vs)[i].path != p
    ensures forall i :: 0 <= i < |PageViews(vs)| ==> Occurrences(Paths(vs), p) <= PageViews(vs)[i].count
  {
    var t := Tally(Paths(vs));
    var s := SortByCount(t);
    var r := PageViews(vs);
    TallyCounts(Paths(vs));
    SortSorted(t);
    var k :| 0 <= k < |t| && t[k].path == p;
    assert t[k] in multiset(s);
    var j :| 0 <= j < |s| && s[j] == t[k];
    forall i | 0 <= i < |r|
      ensures r[i] == s[i]
    {
    }
    assert j >= |r|;
  }

  /** Every visited path is shown when there are at most ten of them. */
  lemma FewPathsAllShown(vs: seq<Visit>, p: string)
    requires p in Paths(vs) && |Tally(Paths(vs))| <= TopPages
    ensures exists i :: 0 <= i < |PageViews(vs)| && PageViews(vs)[i].path == p
  {
    var t := Tally(Paths(vs));
    var s := SortByCount(t);
    TallyCounts(Paths(vs));
    var k :| 0 <= k < |t| && t[k].path == p;
    assert t[k] in multiset(s);
    var j :| 0 <= j < |s| && s[j] == t[k];
    assert PageViews(vs)[j] == s[j];
  }

  // ---------------------------------------------------------------------------
  // getRecentActivity

  const RecentCount := 20

  /** `analytics.slice(0, 20)`: the first twenty visits as loaded (newest first). */
  function RecentActivity(vs: seq<Visit>): (r: seq<Visit>)
    ensures |r| == if |vs| < RecentCount then |vs| else RecentCount
    ensures forall i :: 0 <= i < |r| ==> r[i] == vs[i]
  {
    if |vs| <= RecentCount then vs else vs[..RecentCount]
  }

  // ---------------------------------------------------------------------------
  // fetchStats

  datatype Stats = Stats(totalPageViews: int, uniqueVisitors: nat, totalDonations: int, totalContacts: int)

  /** `new Set(visits.map(a => a.visitor_id)).size`: null counts as one value. */
  function DistinctVisitors(vs: seq<Visit>): (n: nat)
    ensures n <= |vs|
    ensures vs != [] ==> n >= 1
  {
    var ids := set i | 0 <= i < |vs| :: vs[i].visitorId;
    SetOfMapSize(vs);
    assert vs != [] ==> vs[0].visitorId in ids;
    |ids|
  }

  lemma {:induction false} SetOfMapSize(vs: seq<Visit>)
    ensures |set i | 0 <= i < |vs| :: vs[i].visitorId| <= |vs|
  {
    if vs != [] {
      var front := vs[..|vs| - 1];
      SetOfMapSize(front);
      var a := set i | 0 <= i < |front| :: front[i].visitorId;
      var b := set i | 0 <= i < |vs| :: vs[i].visitorId;
      assert b == a + {vs[|vs| - 1].visitorId} by {
        forall x | x in b ensures x in a + {vs[|vs| - 1].visitorId} {
          var i :| 0 <= i < |vs| && vs[i].visitorId == x;
          if i < |vs| - 1 {
            assert front[i] == vs[i];
          }
        }
        forall x | x in a ensures x in b {
          var i :| 0 <= i < |front| && front[i].visitorId == x;
          assert vs[i] == front[i];
        }
      }
    }
  }

  /** `donationsData.data?.reduce((sum, d) => sum + d.amount, 0) || 0`. */
  function TotalDonations(amounts: Option<seq<int>>): int
  {
    match amounts
    case None => 0
    case Some(xs) => SumOf(xs)
  }

  function SumOf(xs: seq<int>): int
  {
    if xs == [] then 0 else xs[0] + SumOf(xs[1..])
  }

  function AmountsOf(t: Table): (r: seq<int>)
    ensures |r| == |t| && forall i :: 0 <= i < |t| ==> r[i] == t[i].amount
  {
    seq(|t|, i requires 0 <= i < |t| => t[i].amount)
  }

  /** The dashboard's donation total agrees with the donations page's total. */
  lemma {:induction false} DashboardTotalMatchesDonationsPage(t: Table)
    ensures TotalDonations(Some(AmountsOf(t))) == DonationsAdmin.Total(t)
  {
    if t != [] {
      assert AmountsOf(t)[1..] == AmountsOf(t[1..]);
      DashboardTotalMatchesDonationsPage(t[1..]);
    }
  }

  /** The donation total the dashboard shows, from the amounts of the whole
      table, is the total the donations page shows for that table. */
  lemma DashboardShowsDonationsPageTotal(t: Table, loaded: seq<Visit>, visitCount: Option<int>, contactCount: Option<int>)
    ensures FetchStats(loaded, visitCount, Some(AmountsOf(t)), contactCount).totalDonations == DonationsAdmin.Total(t)
    ensures FetchStatsAsWritten(loaded, visitCount, Some(AmountsOf(t)), contactCount).totalDonations == DonationsAdmin.Total(t)
  {
    DashboardTotalMatchesDonationsPage(t);
  }

  /** The mount effect as written: `fetchStats` reads the `analytics` of the
      render that scheduled it, which is the initial empty list, not the visits
      `fetchAnalytics` loads. */
  function FetchStatsAsWritten(loaded: seq<Visit>, visitCount: Option<int>, amounts: Option<seq<int>>, contactCount: Option<int>): (s: Stats)
    ensures s.uniqueVisitors == 0
    ensures s.totalPageViews == visitCount.GetOr(0) && s.totalContacts == contactCount.GetOr(0)
    ensures s.totalDonations == TotalDonations(amounts)
  {
    var closure: seq<Visit> := [];
    Stats(visitCount.GetOr(0), DistinctVisitors(closure), TotalDonations(amounts), contactCount.GetOr(0))
  }

  /** The stats with unique visitors counted over the loaded visits. */
  function FetchStats(loaded: seq<Visit>, visitCount: Option<int>, amounts: Option<seq<int>>, contactCount: Option<int>): (s: Stats)
    ensures s.uniqueVisitors == |set i | 0 <= i < |loaded| :: loaded[i].visitorId|
    ensures loaded != [] ==> s.uniqueVisitors >= 1
    ensures s.totalPageViews == visitCount.GetOr(0) && s.totalContacts == contactCount.GetOr(0)
    // a failed amounts query (`null`) shows 0, otherwise the amounts' sum
    ensures s.totalDonations == TotalDonations(amounts)
  {
    Stats(visitCount.GetOr(0), DistinctVisitors(loaded), TotalDonations(amounts), contactCount.GetOr(0))
  }

  /** One loaded visit is enough to see the dashboard undercount. */
  lemma UniqueVisitorsUndercount(v: Visit)
    ensures FetchStatsAsWritten([v], None, None, None).uniqueVisitors == 0
    ensures FetchStats([v], None, None, None).uniqueVisitors == 1
  {
    var ids := set i | 0 <= i < |[v]| :: [v][i].visitorId;
    assert [v][0].visitorId in ids;
    assert ids == {v.visitorId};
  }
}

=== FILE: app_store.dfy ===
/** The client-side application store: theme, signed-in admin, sidebar and
    notification, with the part of it kept across reloads. */
module AppStore {
  import opened Wrappers

  datatype Theme = Theme(backgroundColor: string, textColor: string, primaryColor: string, fontFamily: string)

  /** `Partial<ThemeSettings>`: a key left out is `None`. */
  datatype ThemePatch = ThemePatch(backgroundColor: Option<string>, textColor: Option<string>, primaryColor: Option<string>, fontFamily: Option<string>)

  datatype Admin = Admin(id: string, email: string, fullName: string, imageUrl: Option<string>)

  datatype NoticeType = Success | Error | Info | Warning

  datatype Notification = Notification(show: bool, message: string, kind: NoticeType)

  datatype State = State(theme: Theme, admin: Option<Admin>, isAuthenticated: bool, isSidebarOpen: bool, notification: Notification)

  const DefaultTheme := Theme("#FFFFFF", "#000000", "#0000FF", "Inter")

  const HiddenNotification := Notification(false, "", Info)

  const Initial := State(DefaultTheme, None, false, true, HiddenNotification)

  /** `setTheme`: `{ ...state.theme, ...newTheme }`. */
  function SetTheme(s: State, p: ThemePatch): (r: State)
    ensures r.(theme := s.theme) == s
    ensures p.backgroundColor.Some? ==> r.theme.backgroundColor == p.backgroundColor.value
    ensures p.backgroundColor.None? ==> r.theme.backgroundColor == s.theme.backgroundColor
    ensures p.textColor.Some? ==> r.theme.textColor == p.textColor.value
    ensures p.textColor.None? ==> r.theme.textColor == s.theme.textColor
    ensures p.primaryColor.Some? ==> r.theme.primaryColor == p.primaryColor.value
    ensures p.primaryColor.None? ==> r.theme.primaryColor == s.theme.primaryColor
    ensures p.fontFamily.Some? ==> r.theme.fontFamily == p.fontFamily.value
    ensures p.fontFamily.None? ==> r.theme.fontFamily == s.theme.fontFamily
  {
    var t := s.theme;
    s.(theme := Theme(p.backgroundColor.GetOr(t.backgroundColor), p.textColor.GetOr(t.textColor),
                      p.primaryColor.GetOr(t.primaryColor), p.fontFamily.GetOr(t.fontFamily)))
  }

  /** Two patches in a row act as one: the later patch's keys win. */
  function Combine(a: ThemePatch, b: ThemePatch): ThemePatch
  {
    ThemePatch(if b.backgroundColor.Some? then b.backgroundColor else a.backgroundColor,
               if b.textColor.Some? then b.textColor else a.textColor,
               if b.primaryColor.Some? then b.primaryColor else a.primaryColor,
               if b.fontFamily.Some? then b.fontFamily else a.fontFamily)
  }

  lemma SetThemeTwice(s: State, a: ThemePatch, b: ThemePatch)
    ensures SetTheme(SetTheme(s, a), b) == SetTheme(s, Combine(a, b))
  {
  }

  /** An empty patch changes nothing; a full patch replaces the theme. */
  lemma SetThemeExtremes(s: State, t: Theme)
    ensures SetTheme(s, ThemePatch(None, None, None, None)) == s
    ensures SetTheme(s, ThemePatch(Some(t.backgroundColor), Some(t.textColor), Some(t.primaryColor), Some(t.fontFamily))).theme == t
  {
  }

  /** `setAdmin`: signed in exactly when an admin is given. */
  function SetAdmin(s: State, a: Option<Admin>): (r: State)
    ensures r.admin == a
    ensures r.isAuthenticated <==> a.Some?
    ensures r.(admin := s.admin, isAuthenticated := s.isAuthenticated) == s
  {
    s.(admin := a, isAuthenticated := a.Some?)
  }

  function ToggleSidebar(s: State): (r: State)
    ensures r.isSidebarOpen == !s.isSidebarOpen
    ensures r.(isSidebarOpen := s.isSidebarOpen) == s
  {
    s.(isSidebarOpen := !s.isSidebarOpen)
  }

  lemma ToggleTwice(s: State)
    ensures ToggleSidebar(ToggleSidebar(s)) == s
  {
  }

  function ShowNotification(s: State, message: string, kind: NoticeType): (r: State)
    ensures r.notification.show && r.notification.message == message && r.notification.kind == kind
    ensures r.(notification := s.notification) == s
  {
    s.(notification := Notification(true, message, kind))
  }

  /** `hideNotification`: back to the initial notification whatever it was. */
  function HideNotification(s: State): (r: State)
    ensures r.notification == Initial.notification
    ensures r.(notification := s.notification) == s
  {
    s.(notification := HiddenNotification)
  }

  /** Showing and then hiding leaves no trace of the message. */
  lemma HideUndoesShow(s: State, message: string, kind: NoticeType)
    ensures HideNotification(ShowNotification(s, message, kind)) == HideNotification(s)
  {
  }

  // ---------------------------------------------------------------------------
  // persist

  /** What `partialize` stores under `southern-org-storage`. */
  datatype Persisted = Persisted(theme: Theme, admin: Option<Admin>, isAuthenticated: bool)

  function Partialize(s: State): (p: Persisted)
    ensures p.theme == s.theme && p.admin == s.admin && p.isAuthenticated == s.isAuthenticated
  {
    Persisted(s.theme, s.admin, s.isAuthenticated)
  }

  /** Rehydration merges the stored keys over the current state, shallowly. */
  function Rehydrate(s: State, p: Persisted): (r: State)
    // the stored keys come back as stored
    ensures Partialize(r) == p
    // the keys that are not stored keep their current values
    ensures r.isSidebarOpen == s.isSidebarOpen && r.notification == s.notification
  {
    s.(theme := p.theme, admin := p.admin, isAuthenticated := p.isAuthenticated)
  }

  /** A reload restores theme and sign-in exactly, while the sidebar and the
      notification start afresh. */
  lemma ReloadRoundTrip(s: State)
    ensures Partialize(Rehydrate(Initial, Partialize(s))) == Partialize(s)
    ensures Rehydrate(Initial, Partialize(s)) == s.(isSidebarOpen := true, notification := HiddenNotification)
  {
  }

  // ---------------------------------------------------------------------------
  // Every state the actions reach

  datatype Action =
    | SetThemeAction(patch: ThemePatch)
    | SetAdminAction(admin: Option<Admin>)
    | ToggleSidebarAction
    | ShowAction(message: string, kind: NoticeType)
    | HideAction
    | ReloadAction

  function Step(s: State, a: Action): State
  {
    match a
    case SetThemeAction(p) => SetTheme(s, p)
    case SetAdminAction(ad) => SetAdmin(s, ad)
    case ToggleSidebarAction => ToggleSidebar(s)
    case ShowAction(m, k) => ShowNotification(s, m, k)
    case HideAction => HideNotification(s)
    case ReloadAction => Rehydrate(Initial, Partialize(s))
  }

  function Run(s: State, actions: seq<Action>): State
    decreases |actions|
  {
    if actions == [] then s else Run(Step(s, actions[0]), actions[1..])
  }

  predicate SignedInMatchesAdmin(s: State)
  {
    s.isAuthenticated <==> s.admin.Some?
  }

  /** From the initial state, whatever the actions and reloads, the store
      reports signed in exactly when it holds an admin. */
  lemma {:induction false} SignInStaysConsistent(s: State, actions: seq<Action>)
    requires SignedInMatchesAdmin(s)
    ensures SignedInMatchesAdmin(Run(s, actions))
    decreases |actions|
  {
    if actions != [] {
      SignInStaysConsistent(Step(s, actions[0]), actions[1..]);
    }
  }

  lemma InitialIsSignedOut()
    ensures SignedInMatchesAdmin(Initial) && !Initial.isAuthenticated && Initial.isSidebarOpen
  {
  }
}

=== FILE: applications.dfy ===
/** The admin applications dashboard: approving a staff, volunteer or partner
    application (copy it into the member table, then flag it approved),
    registering a member directly, and the pending/approved counters.
    Rows are untyped records, as the page treats them. */
module Applications {
  import opened Wrappers
  import opened JsText

  datatype Kind = Staff | Volunteer | Partner

  /** The `type` argument; any other text is an invalid type. */
  function ParseKind(s: string): (k: Option<Kind>)
    ensures k == Some(Staff) <==> s == "staff"
    ensures k == Some(Volunteer) <==> s == "volunteer"
    ensures k == Some(Partner) <==> s == "partner"
  {
    if s == "staff" then Some(Staff)
    else if s == "volunteer" then Some(Volunteer)
    else if s == "partner" then Some(Partner)
    else None
  }

  function ApplicationTable(k: Kind): string
  {
    match k
    case Staff => "staff_applications"
    case Volunteer => "volunteer_applications"
    case Partner => "partner_applications"
  }

  function MainTable(k: Kind): string
  {
    match k
    case Staff => "staff"
    case Volunteer => "volunteers"
    case Partner => "partners"
  }

  /** The three application tables and the three member tables. */
  datatype Db = Db(
    staffApplications: seq<Record>, volunteerApplications: seq<Record>, partnerApplications: seq<Record>,
    staff: seq<Record>, volunteers: seq<Record>, partners: seq<Record>)

  function Applications(db: Db, k: Kind): seq<Record>
  {
    match k
    case Staff => db.staffApplications
    case Volunteer => db.volunteerApplications
    case Partner => db.partnerApplications
  }

  function Members(db: Db, k: Kind): seq<Record>
  {
    match k
    case Staff => db.staff
    case Volunteer => db.volunteers
    case Partner => db.partners
  }

  function WithApplications(db: Db, k: Kind, xs: seq<Record>): (r: Db)
    ensures Applications(r, k) == xs
    ensures forall j :: j != k ==> Applications(r, j) == Applications(db, j)
    ensures forall j :: Members(r, j) == Members(db, j)
  {
    match k
    case Staff => db.(staffApplications := xs)
    case Volunteer => db.(volunteerApplications := xs)
    case Partner => db.(partnerApplications := xs)
  }

  function WithMembers(db: Db, k: Kind, xs: seq<Record>): (r: Db)
    ensures Members(r, k) == xs
    ensures forall j :: j != k ==> Members(r, j) == Members(db, j)
    ensures forall j :: Applications(r, j) == Applications(db, j)
  {
    match k
    case Staff => db.(staff := xs)
    case Volunteer => db.(volunteers := xs)
    case Partner => db.(partners := xs)
  }

  predicate HasId(r: Record, id: string)
  {
    FieldOf(r, "id") == Str(id)
  }

  predicate IsApproved(r: Record)
  {
    IsTruthy(FieldOf(r, "is_approved"))
  }

  /** `list.find(a => a.id === id)`. */
  function Find(xs: seq<Record>, id: string): (r: Option<Record>)
    ensures r.Some? ==> r.value in xs && HasId(r.value, id)
    ensures r.None? <==> forall i :: 0 <= i < |xs| ==> !HasId(xs[i], id)
  {
    if xs == [] then None
    else if HasId(xs[0], id) then Some(xs[0])
    else Find(xs[1..], id)
  }

  /** The member row made from an application: every column but
      `is_approved`, with `is_active = true` and `created_at = now` on top. */
  function MemberRecord(app: Record, now: string): (r: Record)
    ensures "is_approved" !in r
    ensures "is_active" in r && r["is_active"] == Bool(true) && "created_at" in r && r["created_at"] == Str(now)
    ensures forall key :: key in app && key != "is_approved" && key != "is_active" && key != "created_at" ==>
              key in r && r[key] == app[key]
    ensures r.Keys == (app.Keys - {"is_approved"}) + {"is_active", "created_at"}
  {
    (app - {"is_approved"})["is_active" := Bool(true)]["created_at" := Str(now)]
  }

  /** `update({ is_approved: true }).eq('id', id)`. */
  function MarkApproved(xs: seq<Record>, id: string): (r: seq<Record>)
    ensures |r| == |xs|
    ensures forall i :: 0 <= i < |xs| ==> r[i] == if HasId(xs[i], id) then xs[i]["is_approved" := Bool(true)] else xs[i]
  {
    seq(|xs|, i requires 0 <= i < |xs| => if HasId(xs[i], id) then xs[i]["is_approved" := Bool(true)] else xs[i])
  }

  /** The alert the admin sees; `ErrorOccurred` is the catch-all for a thrown error. */
  datatype Alert = NoAlert | ErrorOccurred | NotFound | RegisterFailed | StatusUpdateFailed | Registered

  datatype Outcome = Outcome(db: Db, alert: Alert)

  /** The loaded lists, one per kind. */
  datatype Loaded = Loaded(staffApps: seq<Record>, volunteerApps: seq<Record>, partnerApps: seq<Record>)

  function LoadedOf(l: Loaded, k: Kind): seq<Record>
  {
    match k
    case Staff => l.staffApps
    case Volunteer => l.volunteerApps
    case Partner => l.partnerApps
  }

  /** `approveApplication(type, id)`: the application is looked up in the
      loaded list; its copy is inserted into the member table; only after that
      insert succeeds is the application flagged approved. A failed flag update
      leaves the member inserted. `now` is the creation timestamp. */
  function Approve(db: Db, loaded: Loaded, kind: string, id: string, now: string, insertOk: bool, updateOk: bool): (o: Outcome)
    ensures ParseKind(kind).None? ==> o == Outcome(db, ErrorOccurred)
    ensures ParseKind(kind).Some? && Find(LoadedOf(loaded, ParseKind(kind).value), id).None? ==> o == Outcome(db, NotFound)
    ensures !insertOk ==> o.db == db
    ensures o.db != db ==> ParseKind(kind).Some? && insertOk
    ensures ParseKind(kind).Some? && Find(LoadedOf(loaded, ParseKind(kind).value), id).Some? && insertOk ==>
              var k := ParseKind(kind).value;
              && Members(o.db, k) == Members(db, k) + [MemberRecord(Find(LoadedOf(loaded, k), id).value, now)]
              && (forall j :: j != k ==> Members(o.db, j) == Members(db, j))
              && (forall j :: j != k ==> Applications(o.db, j) == Applications(db, j))
              && Applications(o.db, k) == (if updateOk then MarkApproved(Applications(db, k), id) else Applications(db, k))
              && o.alert == (if updateOk then NoAlert else StatusUpdateFailed)
  {
    match ParseKind(kind)
    case None => Outcome(db, ErrorOccurred)
    case Some(k) =>
      match Find(LoadedOf(loaded, k), id)
      case None => Outcome(db, NotFound)
      case Some(app) =>
        if !insertOk then Outcome(db, RegisterFailed)
        else
          var inserted := WithMembers(db, k, Members(db, k) + [MemberRecord(app, now)]);
          if updateOk then Outcome(WithApplications(inserted, k, MarkApproved(Applications(db, k), id)), NoAlert)
          else Outcome(inserted, StatusUpdateFailed)
  }

  /** `registerDirect(type, data)`: the submitted fields with `is_active = true`
      and `created_at = now` go into the kind's member table; nothing else. */
  function RegisterDirect(db: Db, kind: string, data: Record, now: string, ok: bool): (o: Outcome)
    ensures ParseKind(kind).None? ==> o == Outcome(db, ErrorOccurred)
    ensures ParseKind(kind).Some? && !ok ==> o == Outcome(db, RegisterFailed)
    ensures ParseKind(kind).Some? && ok ==>
              var k := ParseKind(kind).value;
              && o.alert == Registered
              && Members(o.db, k) == Members(db, k) + [data["is_active" := Bool(true)]["created_at" := Str(now)]]
              && (forall j :: j != k ==> Members(o.db, j) == Members(db, j))
              && (forall j :: Applications(o.db, j) == Applications(db, j))
  {
    match ParseKind(kind)
    case None => Outcome(db, ErrorOccurred)
    case Some(k) =>
      if !ok then Outcome(db, RegisterFailed)
      else Outcome(WithMembers(db, k, Members(db, k) + [data["is_active" := Bool(true)]["created_at" := Str(now)]]), Registered)
  }

  // ---------------------------------------------------------------------------
  // getApplicationCount

  /** `xs.filter(app => app.is_approved)` (approved) or its negation (pending). */
  function FilterApproved(xs: seq<Record>, approved: bool): (r: seq<Record>)
    ensures |r| <= |xs|
    ensures forall x :: x in r ==> x in xs && IsApproved(x) == approved
    // complete: every application in that state is kept
    ensures forall i :: 0 <= i < |xs| && IsApproved(xs[i]) == approved ==> xs[i] in r
  {
    if xs == [] then []
    else if IsApproved(xs[0]) == approved then [xs[0]] + FilterApproved(xs[1..], approved)
    else FilterApproved(xs[1..], approved)
  }

  /** The filter keeps each application in the requested state exactly as often
      as it occurs, and no other. */
  lemma {:induction false} FilterApprovedExact(xs: seq<Record>, approved: bool)
    ensures forall x :: multiset(FilterApproved(xs, approved))[x] == if IsApproved(x) == approved then multiset(xs)[x] else 0
  {
    if xs != [] {
      FilterApprovedExact(xs[1..], approved);
      assert xs == [xs[0]] + xs[1..];
    }
  }

  datatype Counts = Counts(totalPending: nat, totalApproved: nat, total: nat)

  function ApplicationCount(l: Loaded): Counts
  {
    var pending := FilterApproved(l.staffApps, false) + FilterApproved(l.volunteerApps, false) + FilterApproved(l.partnerApps, false);
    var approved := FilterApproved(l.staffApps, true) + FilterApproved(l.volunteerApps, true) + FilterApproved(l.partnerApps, true);
    Counts(|pending|, |approved|, |l.staffApps| + |l.volunteerApps| + |l.partnerApps|)
  }

  /** Every application is either pending or approved, never both. */
  lemma {:induction false} FilterPartition(xs: seq<Record>)
    ensures |FilterApproved(xs, true)| + |FilterApproved(xs, false)| == |xs|
  {
    if xs != [] {
      FilterPartition(xs[1..]);
    }
  }

  /** The pending and approved counters always add up to the total. */
  lemma CountsAddUp(l: Loaded)
    ensures ApplicationCount(l).totalPending + ApplicationCount(l).totalApproved == ApplicationCount(l).total
  {
    FilterPartition(l.staffApps);
    FilterPartition(l.volunteerApps);
    FilterPartition(l.partnerApps);
  }

  /** The pending rows that carry a given id. */
  function PendingWithId(xs: seq<Record>, id: string): nat
  {
    if xs == [] then 0
    else (if HasId(xs[0], id) && !IsApproved(xs[0]) then 1 else 0) + PendingWithId(xs[1..], id)
  }

  /** Flagging an id approved moves exactly the pending rows with that id from
      the pending count to the approved count. */
  lemma {:induction false} MarkMovesPending(xs: seq<Record>, id: string)
    ensures |FilterApproved(MarkApproved(xs, id), false)| + PendingWithId(xs, id) == |FilterApproved(xs, false)|
    ensures |FilterApproved(MarkApproved(xs, id), true)| == |FilterApproved(xs, true)| + PendingWithId(xs, id)
  {
    if xs != [] {
      assert MarkApproved(xs, id)[1..] == MarkApproved(xs[1..], id);
      MarkMovesPending(xs[1..], id);
    }
  }

  /** A pending application that is found contributes to that number. */
  lemma {:induction false} FoundPendingCounts(xs: seq<Record>, i: nat, id: string)
    requires i < |xs| && HasId(xs[i], id) && !IsApproved(xs[i])
    ensures PendingWithId(xs, id) >= 1
  {
    if i > 0 {
      assert xs[1..][i - 1] == xs[i];
      FoundPendingCounts(xs[1..], i - 1, id);
    }
  }

  /** Approving a pending application that the page loaded from the table
      raises the approved count of its kind, and the kind's total stays. */
  lemma ApprovingPendingRaisesApproved(db: Db, loaded: Loaded, kind: string, id: string, now: string)
    requires ParseKind(kind).Some?
    requires LoadedOf(loaded, ParseKind(kind).value) == Applications(db, ParseKind(kind).value)
    requires Find(LoadedOf(loaded, ParseKind(kind).value), id).Some?
    requires !IsApproved(Find(LoadedOf(loaded, ParseKind(kind).value), id).value)
    ensures var k := ParseKind(kind).value;
            var after := Applications(Approve(db, loaded, kind, id, now, true, true).db, k);
            |after| == |Applications(db, k)|
            && |FilterApproved(after, true)| > |FilterApproved(Applications(db, k), true)|
  {
    var k := ParseKind(kind).value;
    var xs := Applications(db, k);
    var app := Find(xs, id).value;
    var i :| 0 <= i < |xs| && xs[i] == app;
    FoundPendingCounts(xs, i, id);
    MarkMovesPending(xs, id);
  }
}

=== FILE: card_initiate.dfy ===
/** `POST /api/payments/card/initiate`: open a Flutterwave hosted-payment
    session for an existing donation, using its receipt number as the
    transaction reference, and mark the donation processing. */
module CardInitiate {
  import opened Wrappers
  import opened JsText
  import opened Donations

  datatype Request = Request(donationId: Option<string>, amount: Option<int>, email: Option<string>, phoneNumber: Option<string>, name: Option<string>)

  /** The phone number is not among the required fields. */
  predicate HasRequiredFields(r: Request)
  {
    IsTruthyText(r.donationId) && IsTruthyNumber(r.amount) && IsTruthyText(r.email) && IsTruthyText(r.name)
  }

  /** The payment-initialisation request sent to Flutterwave. */
  datatype CardCall = CardCall(
    txRef: Option<string>, amount: int, email: string, phoneNumber: Option<string>, name: string,
    description: string, metaDonationId: string, metaReceiptNumber: Option<string>)

  /** Flutterwave's answer, or the error a failed fetch or JSON parse throws.
      `data` is `None` when the answer has no `data` object, and `Some(None)`
      when `data` has no `link`. */
  datatype InitReply =
    | InitThrew(thrown: string)
    | InitAnswered(ok: bool, status: Option<string>, message: Option<string>, data: Option<Option<string>>)

  /** The provider accepted the session: HTTP ok and `status == 'success'`. */
  predicate Accepted(reply: InitReply)
  {
    reply.InitAnswered? && reply.ok && reply.status == Some("success")
  }

  datatype Body = ErrorBody(error: string) | Checkout(paymentLink: Option<string>, referenceId: Option<string>)

  /** Reading `data.link` when `data` is missing throws a TypeError. */
  const MissingDataError := "Cannot read properties of undefined (reading 'link')"

  function Post(req: Request, t: Table, reply: InitReply): (h: Handled<Body, CardCall>)
    ensures !HasRequiredFields(req) ==> h.httpStatus == 400 && h.table == t && h.call.None?
    ensures HasRequiredFields(req) && SingleById(t, req.donationId.value).None? ==>
              h.httpStatus == 404 && h.table == t && h.call.None?
    // the provider sees the donation's receipt number as tx_ref and in the meta block
    ensures h.call.Some? ==>
              && HasRequiredFields(req)
              && SingleById(t, req.donationId.value).Some?
              && h.call.value.txRef == SingleById(t, req.donationId.value).value.receiptNumber
              && h.call.value.metaReceiptNumber == h.call.value.txRef
              && h.call.value.metaDonationId == req.donationId.value
              && h.call.value.email == req.email.value
              && h.call.value.phoneNumber == req.phoneNumber
    ensures HasRequiredFields(req) && SingleById(t, req.donationId.value).Some? ==> h.call.Some?
    // a refused session: 500 and the row untouched
    ensures h.call.Some? && !Accepted(reply) ==> h.httpStatus == 500 && h.table == t
    // an accepted session: the row gets the receipt number as reference and
    // the processing status, whatever happens after
    ensures h.call.Some? && Accepted(reply) ==>
              && |h.table| == |t|
              && (forall i :: 0 <= i < |t| && t[i].id != req.donationId.value ==> h.table[i] == t[i])
              && (forall i :: 0 <= i < |t| && t[i].id == req.donationId.value ==>
                    h.table[i] == t[i].(paymentReference := h.call.value.txRef, paymentStatus := Processing))
    ensures h.httpStatus == 200 <==> h.call.Some? && Accepted(reply) && reply.data.Some?
    ensures h.httpStatus == 200 ==>
              h.body == Checkout(reply.data.value, h.call.value.txRef)
  {
    if !HasRequiredFields(req) then
      Handled(400, ErrorBody("Missing required fields"), t, None)
    else
      var id := req.donationId.value;
      match SingleById(t, id)
      case None => Handled(404, ErrorBody("Donation not found"), t, None)
      case Some(donation) =>
        var receipt := donation.receiptNumber;
        var call := CardCall(receipt, req.amount.value, req.email.value, req.phoneNumber, req.name.value,
                             "Donation - " + receipt.GetOr("null"), id, receipt);
        match reply
        case InitThrew(m) =>
          Handled(500, ErrorBody(OrElse(Some(m), "Payment initialization failed")), t, Some(call))
        case InitAnswered(ok, status, message, data) =>
          if !ok || status != Some("success") then
            Handled(500, ErrorBody(OrElse(message, "Payment initialization failed")), t, Some(call))
          else
            var t' := Update(t, ById(id), Patch(Some(Processing), Some(receipt), None));
            match data
            case None => Handled(500, ErrorBody(MissingDataError), t', Some(call))
            case Some(link) => Handled(200, Checkout(link, receipt), t', Some(call))
  }

  /** The phone number neither gates the request nor changes what is written. */
  lemma PhoneNumberIsOptional(req: Request, t: Table, reply: InitReply, phone: Option<string>)
    ensures Post(req.(phoneNumber := phone), t, reply).httpStatus == Post(req, t, reply).httpStatus
    ensures Post(req.(phoneNumber := phone), t, reply).table == Post(req, t, reply).table
  {
  }
}

=== FILE: card_verify.dfy ===
/** `POST /api/payments/card/verify`: ask Flutterwave for a transaction by id,
    map its status, and write it on the first donation whose receipt number is
    the transaction's `tx_ref` as Flutterwave reports it. */
module CardVerify {
  import opened Wrappers
  import opened JsText
  import opened Donations
  import opened Providers

  /** `txRef` is accepted from the client but never used. */
  datatype Request = Request(transactionId: Option<string>, txRef: Option<string>)

  datatype VerifyCall = VerifyCall(transactionId: string)

  /** The `data` object of a verification answer. */
  datatype Transaction = Transaction(status: Option<string>, txRef: Option<string>, amount: Option<int>, currency: Option<string>, id: Option<int>)

  /** Flutterwave's answer, or the error a failed fetch or JSON parse throws;
      `data` is `None` when the answer carries no `data` object. */
  datatype VerifyReply =
    | VerifyThrew(thrown: string)
    | VerifyAnswered(ok: bool, status: Option<string>, message: Option<string>, data: Option<Transaction>)

  predicate Confirmed(reply: VerifyReply)
  {
    reply.VerifyAnswered? && reply.ok && reply.status == Some("success")
  }

  datatype Body =
    | ErrorBody(error: string)
    | Verified(status: string, amount: Option<int>, currency: Option<string>, transactionId: Option<int>, reference: Option<string>)

  /** Reading `data.status` when `data` is missing throws a TypeError. */
  const MissingDataError := "Cannot read properties of undefined (reading 'status')"

  /** The position of the donation the update targets: the first row whose
      receipt number equals the reported `tx_ref`. */
  function Target(t: Table, txRef: Option<string>): Option<nat>
  {
    if txRef.Some? then FirstMatch(t, ByReceipt(txRef.value)) else None
  }

  function Post(req: Request, t: Table, reply: VerifyReply): (h: Handled<Body, VerifyCall>)
    ensures !IsTruthyText(req.transactionId) ==> h.httpStatus == 400 && h.table == t && h.call.None?
    ensures IsTruthyText(req.transactionId) ==> h.call == Some(VerifyCall(req.transactionId.value))
    // no confirmation (or no transaction data): 500 and no write
    ensures h.httpStatus != 200 ==> h.table == t
    ensures h.httpStatus == 200 <==> IsTruthyText(req.transactionId) && Confirmed(reply) && reply.data.Some?
    ensures h.httpStatus == 200 ==>
              var tx := reply.data.value;
              var s := FlutterwaveStatus(tx.status);
              && h.body == Verified(StatusText(s), tx.amount, tx.currency, tx.id, tx.txRef)
              && |h.table| == |t|
              // with no matching donation nothing is written
              && (Target(t, tx.txRef).None? ==> h.table == t)
              // otherwise every row sharing the id of the first match is written
              && (Target(t, tx.txRef).Some? ==>
                    var d := t[Target(t, tx.txRef).value];
                    && d.receiptNumber == tx.txRef
                    && (forall i :: 0 <= i < |t| && t[i].id == d.id ==>
                          h.table[i] == t[i].(paymentStatus := s, receiptGenerated := s == Success))
                    && (forall i :: 0 <= i < |t| && t[i].id != d.id ==> h.table[i] == t[i]))
  {
    if !IsTruthyText(req.transactionId) then
      Handled(400, ErrorBody("Transaction ID is required"), t, None)
    else
      var call := Some(VerifyCall(req.transactionId.value));
      match reply
      case VerifyThrew(m) => Handled(500, ErrorBody(OrElse(Some(m), "Verification failed")), t, call)
      case VerifyAnswered(ok, status, message, data) =>
        if !ok || status != Some("success") then
          Handled(500, ErrorBody(OrElse(message, "Verification failed")), t, call)
        else
          match data
          case None => Handled(500, ErrorBody(MissingDataError), t, call)
          case Some(tx) =>
            var s := FlutterwaveStatus(tx.status);
            var t' :=
              match Target(t, tx.txRef)
              case None => t
              case Some(j) => Update(t, ById(t[j].id), Patch(Some(s), None, Some(s == Success)));
            Handled(200, Verified(StatusText(s), tx.amount, tx.currency, tx.id, tx.txRef), t', call)
  }

  /** With unique ids, exactly the matched donation changes, it ends up with
      `receipt_generated` tied to success, and its `payment_reference` is kept. */
  lemma VerifyWritesOneRow(req: Request, t: Table, reply: VerifyReply, i: nat)
    requires UniqueIds(t) && i < |t|
    requires Post(req, t, reply).httpStatus == 200
    ensures var h := Post(req, t, reply);
            var target := Target(t, reply.data.value.txRef);
            && (target != Some(i) ==> h.table[i] == t[i])
            && (target == Some(i) ==>
                  ReceiptConsistent(h.table[i]) && h.table[i].paymentReference == t[i].paymentReference)
  {
    var target := Target(t, reply.data.value.txRef);
    if target.Some? && target != Some(i) {
      var j := target.value;
      assert t[j].id != t[i].id by {
        if j < i { assert t[j].id != t[i].id; } else { assert t[i].id != t[j].id; }
      }
    }
  }

  /** The client's `txRef` plays no part in the outcome. */
  lemma ClientTxRefIgnored(req: Request, t: Table, reply: VerifyReply, other: Option<string>)
    ensures Post(req.(txRef := other), t, reply) == Post(req, t, reply)
  {
  }
}

=== FILE: card_webhook.dfy ===
/** `POST /api/payments/card/webhook`: Flutterwave's signed notification. A
    `charge.completed` event overwrites the status, the receipt flag and the
    payment reference of the first donation whose receipt number is the
    event's `tx_ref`. */
module CardWebhook {
  import opened Wrappers
  import opened JsText
  import opened Donations
  import opened Providers

  datatype Charge = Charge(txRef: Option<string>, status: Option<string>, amount: Option<int>, currency: Option<string>, id: Option<int>)

  datatype Event = Event(event: Option<string>, data: Option<Charge>)

  /** One delivery: the parsed JSON body (`None` when it does not parse) and
      the `verif-hash` header. */
  datatype Delivery = Delivery(body: Option<Event>, signature: Option<string>)

  datatype Body = Acknowledged | ErrorBody(error: string)

  /** The answer, the table afterwards, and whether the table was queried at all. */
  datatype Outcome = Outcome(httpStatus: int, body: Body, table: Table, queried: bool)

  /** The header is present, non-empty and equal to the configured secret; an
      unset secret matches nothing. */
  predicate Authentic(signature: Option<string>, secret: Option<string>)
  {
    IsTruthyText(signature) && secret == signature
  }

  const HandlerError := "Webhook processing failed"

  /** The update a matched charge makes. */
  function ChargePatch(c: Charge): Patch
    requires c.id.Some?
  {
    var s := FlutterwaveStatus(c.status);
    Patch(Some(s), Some(Some(IntToDecimal(c.id.value))), Some(s == Success))
  }

  function Target(t: Table, txRef: Option<string>): Option<nat>
  {
    if txRef.Some? then FirstMatch(t, ByReceipt(txRef.value)) else None
  }

  /** A parsed, authentic `charge.completed` event. */
  predicate Completed(d: Delivery, secret: Option<string>)
  {
    d.body.Some? && Authentic(d.signature, secret) && d.body.value.event == Some("charge.completed")
  }

  /** A completed event with `data` whose `tx_ref` is some donation's receipt number. */
  predicate Matched(d: Delivery, secret: Option<string>, t: Table)
  {
    Completed(d, secret) && d.body.value.data.Some? && Target(t, d.body.value.data.value.txRef).Some?
  }

  function Post(d: Delivery, secret: Option<string>, t: Table): (o: Outcome)
    // a body that is not JSON throws in `request.json()`: 500, nothing read or written
    ensures d.body.None? ==> o.httpStatus == 500 && !o.queried && o.table == t
    // a bad or missing signature: 401, and the table is neither read nor written
    ensures d.body.Some? && !Authentic(d.signature, secret) ==> o.httpStatus == 401 && !o.queried && o.table == t
    ensures o.httpStatus != 200 ==> o.table == t
    ensures o.httpStatus == 200 ==> o.body == Acknowledged && Authentic(d.signature, secret)
    // any other event is acknowledged without touching the table
    ensures d.body.Some? && Authentic(d.signature, secret) && d.body.value.event != Some("charge.completed") ==>
              o.httpStatus == 200 && !o.queried && o.table == t
    ensures o.queried ==> d.body.Some? && d.body.value.event == Some("charge.completed") && d.body.value.data.Some?
    // a completed event without `data` throws when it is destructured: 500 before any query
    ensures Completed(d, secret) && d.body.value.data.None? ==>
              o.httpStatus == 500 && o.body == ErrorBody(HandlerError) && !o.queried && o.table == t
    // a completed event with `data` always looks its donation up
    ensures Completed(d, secret) && d.body.value.data.Some? ==> o.queried
    // a matched charge with an id is acknowledged (and written, below)
    ensures Matched(d, secret, t) && d.body.value.data.value.id.Some? ==> o.httpStatus == 200
    // a matched charge without an id throws at `id.toString()`, before the update
    ensures Matched(d, secret, t) && d.body.value.data.value.id.None? ==>
              o.httpStatus == 500 && o.body == ErrorBody(HandlerError) && o.table == t
    // a charge that matches no donation is acknowledged with no write
    ensures o.queried && d.body.Some? && d.body.value.data.Some? && Target(t, d.body.value.data.value.txRef).None? ==>
              o.httpStatus == 200 && o.table == t
    // a matched charge overwrites status, receipt flag and reference on that donation's id
    ensures o.httpStatus == 200 && o.queried && d.body.Some? && d.body.value.data.Some? && Target(t, d.body.value.data.value.txRef).Some? ==>
              var c := d.body.value.data.value;
              var j := Target(t, c.txRef).value;
              var s := FlutterwaveStatus(c.status);
              && c.id.Some?
              && t[j].receiptNumber == c.txRef
              && |o.table| == |t|
              && (forall i :: 0 <= i < |t| && t[i].id == t[j].id ==>
                    o.table[i] == t[i].(paymentStatus := s, receiptGenerated := s == Success,
                                        paymentReference := Some(IntToDecimal(c.id.value))))
              && (forall i :: 0 <= i < |t| && t[i].id != t[j].id ==> o.table[i] == t[i])
  {
    match d.body
    case None => Outcome(500, ErrorBody(HandlerError), t, false)
    case Some(ev) =>
      if !Authentic(d.signature, secret) then Outcome(401, ErrorBody("Invalid signature"), t, false)
      else if ev.event != Some("charge.completed") then Outcome(200, Acknowledged, t, false)
      else
        match ev.data
        case None => Outcome(500, ErrorBody(HandlerError), t, false)
        case Some(c) =>
          match Target(t, c.txRef)
          case None => Outcome(200, Acknowledged, t, true)
          case Some(j) =>
            if c.id.None? then Outcome(500, ErrorBody(HandlerError), t, true)
            else Outcome(200, Acknowledged, Update(t, ById(t[j].id), ChargePatch(c)), true)
  }

  /** Rows that agree on every receipt number give the same first match. */
  lemma {:induction false} SameReceiptsSameTarget(a: Table, b: Table, r: string)
    requires |a| == |b|
    requires forall i :: 0 <= i < |a| ==> a[i].receiptNumber == b[i].receiptNumber
    ensures FirstMatch(a, ByReceipt(r)) == FirstMatch(b, ByReceipt(r))
  {
    if a != [] {
      assert forall i :: 0 <= i < |a[1..]| ==> a[1..][i].receiptNumber == b[1..][i].receiptNumber by {
        forall i | 0 <= i < |a[1..]|
          ensures a[1..][i].receiptNumber == b[1..][i].receiptNumber
        {
          assert a[1..][i] == a[i + 1] && b[1..][i] == b[i + 1];
        }
      }
      SameReceiptsSameTarget(a[1..], b[1..], r);
    }
  }

  /** Redelivering an acknowledged event changes nothing more: the update is an
      overwrite computed from the event alone, and it leaves receipt numbers, so
      the same donation is found again. */
  lemma {:induction false} RedeliveryIsIdempotent(d: Delivery, secret: Option<string>, t: Table)
    requires Post(d, secret, t).httpStatus == 200
    ensures Post(d, secret, Post(d, secret, t).table) == Post(d, secret, t)
  {
    var o := Post(d, secret, t);
    if o.queried {
      var c := d.body.value.data.value;
      if c.txRef.Some? {
        SameReceiptsSameTarget(t, o.table, c.txRef.value);
        match Target(t, c.txRef)
        case None =>
        case Some(j) =>
          var k := ById(t[j].id);
          var p := ChargePatch(c);
          assert o.table[j].id == t[j].id;
          assert Update(o.table, k, p) == o.table by {
            forall i | 0 <= i < |t|
              ensures Update(o.table, k, p)[i] == o.table[i]
            {
            }
          }
      }
    }
  }
}

=== FILE: content.dfy ===
/** The admin content page: the ordered lists of about sections and objectives
    (add, edit, cancel), and the single vision and mission statements (save). */
module Content {
  import opened Wrappers
  import opened JsText
  import opened OrderIndex

  // ---------------------------------------------------------------------------
  // About sections and objectives: the same flow over two tables

  /** A row of `about_us` (its `description`) or of `objectives` (its `statement`). */
  datatype Item = Item(id: string, text: string, imageUrl: Option<string>, orderIndex: int)

  datatype ItemForm = ItemForm(text: string, imageUrl: string)

  /** The form and the id of the item under edit (`null` when adding). */
  datatype ItemEditor = ItemEditor(form: ItemForm, editingId: Option<string>)

  const EmptyEditor := ItemEditor(ItemForm("", ""), None)

  datatype Notice = Saved | SaveFailed

  datatype ItemOutcome = ItemOutcome(table: seq<Item>, editor: ItemEditor, notice: Option<Notice>)

  function IndexOfItem(item: Item): int
  {
    item.orderIndex
  }

  function EditRows(t: seq<Item>, id: string, f: ItemForm): (r: seq<Item>)
    ensures |r| == |t|
    ensures forall i :: 0 <= i < |t| ==> r[i] == if t[i].id == id then t[i].(text := f.text, imageUrl := Some(f.imageUrl)) else t[i]
  {
    seq(|t|, i requires 0 <= i < |t| => if t[i].id == id then t[i].(text := f.text, imageUrl := Some(f.imageUrl)) else t[i])
  }

  /** `handleAddAbout` / `handleAddObjective`. Empty text does nothing. With a
      (non-empty) id under edit that row's text and image are rewritten;
      otherwise an item is inserted after every listed one. On success the form
      is emptied and the edit ended; on error both are kept. `list` is the
      loaded list, `newId` the id the database assigns. */
  function AddOrUpdate(e: ItemEditor, list: seq<Item>, t: seq<Item>, newId: string, ok: bool): (o: ItemOutcome)
    ensures e.form.text == "" ==> o == ItemOutcome(t, e, None)
    ensures e.form.text != "" && !ok ==> o == ItemOutcome(t, e, Some(SaveFailed))
    ensures e.form.text != "" && ok ==> o.editor == EmptyEditor && o.notice == Some(Saved)
    ensures e.form.text != "" && ok && IsTruthyText(e.editingId) ==>
              |o.table| == |t|
              && forall i :: 0 <= i < |t| ==>
                   && o.table[i].id == t[i].id
                   && o.table[i].orderIndex == t[i].orderIndex
                   && (t[i].id == e.editingId.value ==> o.table[i].text == e.form.text && o.table[i].imageUrl == Some(e.form.imageUrl))
                   && (t[i].id != e.editingId.value ==> o.table[i] == t[i])
    ensures e.form.text != "" && ok && !IsTruthyText(e.editingId) ==>
              |o.table| == |t| + 1 && o.table[..|t|] == t
              && o.table[|t|].id == newId
              && o.table[|t|].text == e.form.text && o.table[|t|].imageUrl == Some(e.form.imageUrl)
              // `maxOrder + 1`: one above the largest listed index, 1 for an empty list
              && o.table[|t|].orderIndex == NextOrderIndex(IndexesOf(list, IndexOfItem))
              && (forall i :: 0 <= i < |list| ==> list[i].orderIndex < o.table[|t|].orderIndex)
              && (list == [] ==> o.table[|t|].orderIndex == 1)
              && (list != [] ==> exists i :: 0 <= i < |list| && o.table[|t|].orderIndex == list[i].orderIndex + 1)
  {
    if e.form.text == "" then ItemOutcome(t, e, None)
    else if !ok then ItemOutcome(t, e, Some(SaveFailed))
    else if IsTruthyText(e.editingId) then ItemOutcome(EditRows(t, e.editingId.value, e.form), EmptyEditor, Some(Saved))
    else
      var item := Item(newId, e.form.text, Some(e.form.imageUrl), NextOrderIndex(IndexesOf(list, IndexOfItem)));
      ItemOutcome(t + [item], EmptyEditor, Some(Saved))
  }

  /** `handleEditAbout` / `handleEditObjective`: the form shows the item, a null
      image as empty text. */
  function EditItem(item: Item): (e: ItemEditor)
    ensures e.editingId == Some(item.id) && e.form.text == item.text
    ensures item.imageUrl.Some? ==> e.form.imageUrl == item.imageUrl.value
    ensures item.imageUrl.None? ==> e.form.imageUrl == ""
  {
    ItemEditor(ItemForm(item.text, OrElse(item.imageUrl, "")), Some(item.id))
  }

  /** `handleCancelEditAbout` / `handleCancelEditObjective`: whatever the editor
      held, it is emptied; no table is touched. */
  function CancelEdit(e: ItemEditor): (r: ItemEditor)
    ensures r.editingId.None? && r.form.text == "" && r.form.imageUrl == ""
  {
    EmptyEditor
  }

  /** Opening an item and saving it untouched rewrites it in place: only a null
      image becomes empty text, and its position is kept. */
  lemma EditSaveRoundTrip(item: Item, list: seq<Item>, t: seq<Item>, newId: string)
    requires item.id != "" && item.text != ""
    ensures var o := AddOrUpdate(EditItem(item), list, t, newId, true);
            |o.table| == |t|
            && forall i :: 0 <= i < |t| && t[i] == item ==> o.table[i] == item.(imageUrl := Some(OrElse(item.imageUrl, "")))
  {
  }

  /** An item whose id is empty cannot be edited: saving it inserts a copy. */
  lemma EmptyIdSavesACopy(item: Item, list: seq<Item>, t: seq<Item>, newId: string)
    requires item.id == "" && item.text != ""
    ensures |AddOrUpdate(EditItem(item), list, t, newId, true).table| == |t| + 1
  {
  }

  // ---------------------------------------------------------------------------
  // Vision and mission: one statement row each

  datatype Statement = Statement(id: string, statement: string, imageUrl: Option<string>)

  datatype StatementForm = StatementForm(statement: string, imageUrl: string)

  /** `select('*').limit(1).single()`: the first row, or `null` for an empty table. */
  function LoadStatement(t: seq<Statement>): (r: Option<Statement>)
    ensures r.Some? <==> t != []
    ensures r.Some? ==> r.value == t[0]
  {
    if t == [] then None else Some(t[0])
  }

  /** The form as loaded: the statement and its image, a null image as empty text. */
  function LoadForm(s: Statement): StatementForm
  {
    StatementForm(s.statement, OrElse(s.imageUrl, ""))
  }

  datatype StatementOutcome = StatementOutcome(table: seq<Statement>, notice: Notice)

  /** `handleSaveVision` / `handleSaveMission`: the loaded row is updated by id,
      or, when none was loaded, the form is inserted as a new row. There is no
      check on the statement. */
  function SaveStatement(loaded: Option<Statement>, f: StatementForm, t: seq<Statement>, newId: string, ok: bool): (o: StatementOutcome)
    ensures !ok ==> o == StatementOutcome(t, SaveFailed)
    ensures ok ==> o.notice == Saved
    ensures ok && loaded.Some? ==>
              |o.table| == |t|
              && forall i :: 0 <= i < |t| ==>
                   o.table[i] == if t[i].id == loaded.value.id then t[i].(statement := f.statement, imageUrl := Some(f.imageUrl)) else t[i]
    ensures ok && loaded.None? ==> o.table == t + [Statement(newId, f.statement, Some(f.imageUrl))]
  {
    if !ok then StatementOutcome(t, SaveFailed)
    else match loaded
      case Some(s) =>
        var r := seq(|t|, i requires 0 <= i < |t| => if t[i].id == s.id then t[i].(statement := f.statement, imageUrl := Some(f.imageUrl)) else t[i]);
        StatementOutcome(r, Saved)
      case None => StatementOutcome(t + [Statement(newId, f.statement, Some(f.imageUrl))], Saved)
  }

  /** Saving and reloading shows what was saved: whether the row was updated or
      inserted, the page reloads the same statement and image. */
  lemma SaveThenLoad(f: StatementForm, t: seq<Statement>, newId: string)
    ensures var o := SaveStatement(LoadStatement(t), f, t, newId, true);
            LoadStatement(o.table).Some? && LoadForm(LoadStatement(o.table).value) == f
  {
  }

  /** Saving into an empty table and saving again updates the row just
      inserted: the table keeps a single statement. */
  lemma SecondSaveUpdates(f: StatementForm, g: StatementForm, newId: string, otherId: string)
    ensures var t1 := SaveStatement(LoadStatement([]), f, [], newId, true).table;
            var t2 := SaveStatement(LoadStatement(t1), g, t1, otherId, true).table;
            t2 == [Statement(newId, g.statement, Some(g.imageUrl))]
  {
  }
}

=== FILE: donate_form.dfy ===
/** The public donation form: the zod schema that gates submission and the
    single insert a valid submission makes. */
module DonateForm {
  import opened Wrappers
  import opened JsDate
  import opened Donations

  /** What the form holds. A field the user never touched is `None`; an empty
      or non-numeric amount input is read as NaN, modelled as `None`. */
  datatype FormData = FormData(
    donorName: Option<string>,
    donorEmail: Option<string>,
    donorPhone: Option<string>,
    amount: Option<int>,
    paymentMethod: Option<string>)

  /** `defaultValues`: only the payment method is preset. */
  const DefaultForm := FormData(None, None, None, None, Some("manual"))

  const Methods: set<string> := {"mtn", "airtel", "card", "manual"}

  const MinimumAmount := 1000

  /** A submission the schema accepted. */
  datatype Entry = Entry(donorName: string, donorEmail: Option<string>, donorPhone: string, amount: int, paymentMethod: string)

  /** The schema's fields, in declaration order. */
  datatype Field = NameField | EmailField | PhoneField | AmountField | MethodField

  predicate NameOk(f: FormData)
  {
    f.donorName.Some? && |f.donorName.value| >= 2
  }

  /** `z.string().email().optional().or(z.literal(''))`: absent, empty, or an
      address `isEmail` accepts. */
  predicate EmailOk(f: FormData, isEmail: string -> bool)
  {
    f.donorEmail.None? || f.donorEmail.value == "" || isEmail(f.donorEmail.value)
  }

  predicate PhoneOk(f: FormData)
  {
    f.donorPhone.Some? && |f.donorPhone.value| >= 10
  }

  predicate AmountOk(f: FormData)
  {
    f.amount.Some? && f.amount.value >= MinimumAmount
  }

  predicate MethodOk(f: FormData)
  {
    f.paymentMethod.Some? && f.paymentMethod.value in Methods
  }

  /** The fields the schema reports, in declaration order. */
  function Issues(f: FormData, isEmail: string -> bool): (r: seq<Field>)
    ensures NameField in r <==> !NameOk(f)
    ensures EmailField in r <==> !EmailOk(f, isEmail)
    ensures PhoneField in r <==> !PhoneOk(f)
    ensures AmountField in r <==> !AmountOk(f)
    ensures MethodField in r <==> !MethodOk(f)
    ensures |r| <= 5
  {
    (if NameOk(f) then [] else [NameField])
    + (if EmailOk(f, isEmail) then [] else [EmailField])
    + (if PhoneOk(f) then [] else [PhoneField])
    + (if AmountOk(f) then [] else [AmountField])
    + (if MethodOk(f) then [] else [MethodField])
  }

  /** The resolver: an entry exactly when no field fails, carrying the form's values. */
  function Validate(f: FormData, isEmail: string -> bool): (r: Option<Entry>)
    ensures r.Some? <==> Issues(f, isEmail) == []
    ensures r.Some? ==> r.value.donorName == f.donorName.value && Some(r.value.donorPhone) == f.donorPhone
                         && r.value.donorEmail == f.donorEmail && Some(r.value.amount) == f.amount
                         && Some(r.value.paymentMethod) == f.paymentMethod
    ensures r.Some? ==> |r.value.donorName| >= 2 && |r.value.donorPhone| >= 10 && r.value.amount >= MinimumAmount
                         && r.value.paymentMethod in Methods
  {
    if NameOk(f) && EmailOk(f, isEmail) && PhoneOk(f) && AmountOk(f) && MethodOk(f) then
      Some(Entry(f.donorName.value, f.donorEmail, f.donorPhone.value, f.amount.value, f.paymentMethod.value))
    else None
  }

  /** The row `onSubmit` inserts: the entry spread, `payment_reference` set to the
      generated receipt number, and `receipt_generated` set for every method
      but `manual`. `receipt_number` is not set and the status is the column
      default; the id and creation time come from the database. */
  function InsertedRow(e: Entry, receipt: string, id: string, createdAt: Instant): Donation
  {
    Donation(id, e.donorName, e.donorEmail, Some(e.donorPhone), e.amount, e.paymentMethod,
             Some(receipt), None, e.paymentMethod != "manual", None, createdAt, ColumnDefaultStatus)
  }

  /** The notification `onSubmit` shows. */
  datatype Notice = Thanks(reference: string) | SubmitFailed

  datatype Outcome = Outcome(table: Table, form: FormData, notice: Option<Notice>)

  /** `handleSubmit(onSubmit)`: validation first; a valid form is inserted, and
      on success the form is reset to its defaults. `receipt` stands for
      `generateReceiptNumber()`, `insertOk` for the insert's error being null. */
  function Submit(f: FormData, isEmail: string -> bool, t: Table, receipt: string, id: string, createdAt: Instant, insertOk: bool): (o: Outcome)
    // an invalid form never reaches the insert
    ensures Issues(f, isEmail) != [] ==> o == Outcome(t, f, None)
    // a valid form adds exactly one row at the end, and nothing else changes
    ensures Issues(f, isEmail) == [] && insertOk ==>
              && |o.table| == |t| + 1 && o.table[..|t|] == t
              && o.table[|t|].paymentReference == Some(receipt)
              && o.table[|t|].receiptNumber.None?
              && (o.table[|t|].receiptGenerated <==> f.paymentMethod != Some("manual"))
              && o.table[|t|].paymentStatus == ColumnDefaultStatus
              && o.form == DefaultForm && o.notice == Some(Thanks(receipt))
    ensures Issues(f, isEmail) == [] && !insertOk ==> o == Outcome(t, f, Some(SubmitFailed))
  {
    match Validate(f, isEmail)
    case None => Outcome(t, f, None)
    case Some(e) =>
      if insertOk then Outcome(t + [InsertedRow(e, receipt, id, createdAt)], DefaultForm, Some(Thanks(receipt)))
      else Outcome(t, f, Some(SubmitFailed))
  }

  /** The columns a donor filled, read back from a row. */
  function EntryOf(d: Donation): Entry
  {
    Entry(d.donorName, d.donorEmail, d.donorPhone.GetOr(""), d.amount, d.paymentMethod)
  }

  /** What was accepted is what is stored: the inserted row reads back as the
      validated entry, which is the form's own values. */
  lemma InsertRoundTrip(f: FormData, isEmail: string -> bool, t: Table, receipt: string, id: string, createdAt: Instant)
    requires Issues(f, isEmail) == []
    ensures var o := Submit(f, isEmail, t, receipt, id, createdAt, true);
            EntryOf(o.table[|t|]) == Validate(f, isEmail).value
  {
  }

  /** A submitted card or mobile-money donation claims a receipt while still
      pending: the receipt flag does not track the status on inserted rows. */
  lemma SubmittedRowsMayClaimReceipt(f: FormData, isEmail: string -> bool, t: Table, receipt: string, id: string, createdAt: Instant)
    requires Issues(f, isEmail) == [] && f.paymentMethod == Some("card")
    ensures !ReceiptConsistent(Submit(f, isEmail, t, receipt, id, createdAt, true).table[|t|])
  {
  }

  /** The default form is not submittable: name, phone and amount are missing. */
  lemma DefaultFormIsIncomplete(isEmail: string -> bool)
    ensures Issues(DefaultForm, isEmail) == [NameField, PhoneField, AmountField]
  {
  }
}

=== FILE: donations.dfy ===
/** The `donations` table the payment routes read and write, and the two kinds
    of query they run against it: `update(...).eq(column, value)` and the
    lookups `.eq('id', id).single()` and `.eq('receipt_number', r).limit(1)`.

    The table is the sequence of its rows in the order the store returns them,
    so that "the first match" and "exactly one match" have a meaning. Nothing
    here assumes ids or receipt numbers are unique; lemmas that need it say so. */
module Donations {
  import opened Wrappers
  import opened JsDate

  /** The values the routes write into `payment_status`. */
  datatype PayStatus = Pending | Processing | Success | Failed

  function StatusText(s: PayStatus): string
  {
    match s
    case Pending => "pending"
    case Processing => "processing"
    case Success => "success"
    case Failed => "failed"
  }

  /** The status of a row no route has written yet: the column default,
      which the submission insert relies on by not naming the column. */
  const ColumnDefaultStatus := Pending

  /** One row of `donations`, with the `payment_status` column the routes write. */
  datatype Donation = Donation(
    id: string,
    donorName: string,
    donorEmail: Option<string>,
    donorPhone: Option<string>,
    amount: int,
    paymentMethod: string,
    paymentReference: Option<string>,
    receiptNumber: Option<string>,
    receiptGenerated: bool,
    receiptUrl: Option<string>,
    createdAt: Instant,
    paymentStatus: PayStatus)

  type Table = seq<Donation>

  /** The column an update or lookup filters on. */
  datatype Key = ById(id: string) | ByReference(reference: string) | ByReceipt(receipt: string)

  /** `.eq(column, value)`: a null column never equals a string. */
  predicate Matches(d: Donation, k: Key)
  {
    match k
    case ById(i) => d.id == i
    case ByReference(r) => d.paymentReference == Some(r)
    case ByReceipt(r) => d.receiptNumber == Some(r)
  }

  /** The columns one update sets; a column left `None` keeps its value.
      `reference` may set `payment_reference` to null. */
  datatype Patch = Patch(status: Option<PayStatus>, reference: Option<Option<string>>, receiptGenerated: Option<bool>)

  function Apply(d: Donation, p: Patch): Donation
  {
    d.(paymentStatus := p.status.GetOr(d.paymentStatus),
       paymentReference := p.reference.GetOr(d.paymentReference),
       receiptGenerated := p.receiptGenerated.GetOr(d.receiptGenerated))
  }

  /** `update(patch).eq(...)`: every matching row is patched in place. */
  function Update(t: Table, k: Key, p: Patch): (r: Table)
    ensures |r| == |t|
  {
    seq(|t|, i requires 0 <= i < |t| => if Matches(t[i], k) then Apply(t[i], p) else t[i])
  }

  /** How many rows a filter selects. */
  function CountMatches(t: Table, k: Key): (n: nat)
    ensures n <= |t|
    ensures n == 0 <==> forall j :: 0 <= j < |t| ==> !Matches(t[j], k)
  {
    if t == [] then 0
    else (if Matches(t[0], k) then 1 else 0) + CountMatches(t[1..], k)
  }

  /** `.limit(1)`: the position of the first row the filter selects. */
  function FirstMatch(t: Table, k: Key): (r: Option<nat>)
    ensures r.Some? ==> r.value < |t| && Matches(t[r.value], k)
    ensures r.Some? ==> forall j :: 0 <= j < r.value ==> !Matches(t[j], k)
    ensures r.None? <==> forall j :: 0 <= j < |t| ==> !Matches(t[j], k)
  {
    if t == [] then None
    else if Matches(t[0], k) then Some(0)
    else match FirstMatch(t[1..], k)
      case None => None
      case Some(j) => Some(j + 1)
  }

  /** `.eq('id', id).single()`: a row only when exactly one row has that id;
      no row and several rows are both an error. */
  function SingleById(t: Table, id: string): (r: Option<Donation>)
    ensures r.Some? <==> CountMatches(t, ById(id)) == 1
    ensures r.Some? ==> r.value in t && r.value.id == id
  {
    if CountMatches(t, ById(id)) == 1 then
      var j := FirstMatch(t, ById(id)).value;
      Some(t[j])
    else None
  }

  predicate UniqueIds(t: Table)
  {
    forall i, j :: 0 <= i < j < |t| ==> t[i].id != t[j].id
  }

  predicate UniqueReceipts(t: Table)
  {
    forall i, j :: 0 <= i < j < |t| && t[i].receiptNumber.Some? ==> t[i].receiptNumber != t[j].receiptNumber
  }

  /** A row appended at the end that the filter does not select leaves the
      first match where it was. */
  lemma {:induction false} FirstMatchAppendMiss(t: Table, d: Donation, k: Key)
    requires !Matches(d, k)
    ensures FirstMatch(t + [d], k) == FirstMatch(t, k)
  {
    if t != [] {
      assert (t + [d])[0] == t[0];
      assert (t + [d])[1..] == t[1..] + [d];
      FirstMatchAppendMiss(t[1..], d, k);
    }
  }

  /** With unique ids, exactly one row carries the id of any row. */
  lemma {:induction false} UniqueIdCountsOnce(t: Table, i: nat)
    requires UniqueIds(t) && i < |t|
    ensures CountMatches(t, ById(t[i].id)) == 1
  {
    var k := ById(t[i].id);
    if i == 0 {
      assert forall j :: 0 <= j < |t[1..]| ==> !Matches(t[1..][j], k) by {
        forall j | 0 <= j < |t[1..]|
          ensures !Matches(t[1..][j], k)
        {
          assert t[1..][j] == t[j + 1];
        }
      }
    } else {
      assert UniqueIds(t[1..]) by {
        forall a, b | 0 <= a < b < |t[1..]|
          ensures t[1..][a].id != t[1..][b].id
        {
          assert t[1..][a] == t[a + 1] && t[1..][b] == t[b + 1];
        }
      }
      assert t[1..][i - 1] == t[i];
      UniqueIdCountsOnce(t[1..], i - 1);
    }
  }

  /** With unique ids, `.single()` on a row's id finds that row. */
  lemma SingleByIdFindsRow(t: Table, i: nat)
    requires UniqueIds(t) && i < |t|
    ensures SingleById(t, t[i].id) == Some(t[i])
  {
    UniqueIdCountsOnce(t, i);
  }

  /** With unique receipt numbers, `.limit(1)` on a row's receipt number finds
      that row: the number written at submission resolves back to its donation. */
  lemma FirstByReceiptFindsRow(t: Table, i: nat)
    requires UniqueReceipts(t) && i < |t| && t[i].receiptNumber.Some?
    ensures FirstMatch(t, ByReceipt(t[i].receiptNumber.value)) == Some(i)
  {
    var r := FirstMatch(t, ByReceipt(t[i].receiptNumber.value));
    assert r.Some?;
  }

  /** The link the status, verify and webhook routes keep on every row they
      write; the submission insert and the initiate routes do not keep it. */
  predicate ReceiptConsistent(d: Donation)
  {
    d.receiptGenerated <==> d.paymentStatus == Success
  }

  /** What a route handler produces: the HTTP status and body it answers with,
      the table after its writes, and the request it sent to a payment provider
      (`None` when it called none). */
  datatype Handled<B, C> = Handled(httpStatus: int, body: B, table: Table, call: Option<C>)
}

=== FILE: file_upload.dfy ===
/** The upload widget used by the admin pages: which files it takes, the size
    limit, the storage path it uploads to, and what the preview shows after an
    upload or a removal. */
module FileUpload {
  import opened Wrappers
  import opened JsText

  datatype Accept = ImageOnly | VideoOnly | Both

  datatype MediaKind = ImageKind | VideoKind

  /** The component's props, with their defaults. */
  datatype Props = Props(accept: Accept, maxSizeMB: nat, currentUrl: string)

  const DefaultProps := Props(Both, 10, "")

  const BytesPerMB := 1024 * 1024

  /** The MIME prefixes a mode accepts, in the order the accept string lists them. */
  function AcceptedPrefixes(a: Accept): seq<string>
  {
    match a
    case ImageOnly => ["image/"]
    case VideoOnly => ["video/"]
    case Both => ["image/", "video/"]
  }

  /** `getAcceptString`: the file picker's filter. */
  function AcceptString(a: Accept): (r: string)
    ensures r == JoinPatterns(AcceptedPrefixes(a))
  {
    match a
    case ImageOnly => "image/*"
    case VideoOnly => "video/*"
    case Both => "image/*,video/*"
  }

  /** Each prefix followed by `*`, separated by commas. */
  function JoinPatterns(ps: seq<string>): string
  {
    if ps == [] then ""
    else if |ps| == 1 then ps[0] + "*"
    else ps[0] + "*," + JoinPatterns(ps[1..])
  }

  /** `isValidFileType`. */
  function IsValidFileType(a: Accept, mime: string): (ok: bool)
    ensures a == ImageOnly ==> (ok <==> StartsWith(mime, "image/"))
    ensures a == VideoOnly ==> (ok <==> StartsWith(mime, "video/"))
    ensures a == Both ==> (ok <==> StartsWith(mime, "image/") || StartsWith(mime, "video/"))
  {
    var isImage := StartsWith(mime, "image/");
    var isVideo := StartsWith(mime, "video/");
    match a
    case ImageOnly => isImage
    case VideoOnly => isVideo
    case Both => isImage || isVideo
  }

  /** The picker's filter and the check agree: a type passes exactly when it
      starts with one of the prefixes the filter lists. */
  lemma FilterMatchesCheck(a: Accept, mime: string)
    ensures IsValidFileType(a, mime) <==> exists i :: 0 <= i < |AcceptedPrefixes(a)| && StartsWith(mime, AcceptedPrefixes(a)[i])
  {
    var ps := AcceptedPrefixes(a);
    if IsValidFileType(a, mime) {
      if a != VideoOnly && StartsWith(mime, "image/") {
        assert StartsWith(mime, ps[0]);
      } else {
        assert StartsWith(mime, ps[|ps| - 1]);
      }
    }
  }

  /** `getFileType`: images are recognised first. */
  function GetFileType(mime: string): (k: Option<MediaKind>)
    ensures k == Some(ImageKind) <==> StartsWith(mime, "image/")
    ensures k == Some(VideoKind) <==> StartsWith(mime, "video/") && !StartsWith(mime, "image/")
  {
    if StartsWith(mime, "image/") then Some(ImageKind)
    else if StartsWith(mime, "video/") then Some(VideoKind)
    else None
  }

  /** A file that passes the check always has a kind, and the kind the mode asks for. */
  lemma ValidFilesHaveAKind(a: Accept, mime: string)
    requires IsValidFileType(a, mime)
    ensures GetFileType(mime).Some?
    ensures a == ImageOnly ==> GetFileType(mime) == Some(ImageKind)
    ensures a == VideoOnly ==> GetFileType(mime) == Some(VideoKind)
  {
    if a == VideoOnly {
      assert mime[..6] == "video/";
    }
  }

  /** `file.size / (1024 * 1024) > maxSizeMB`, in whole bytes. */
  predicate TooLarge(size: nat, maxSizeMB: nat)
    ensures TooLarge(size, maxSizeMB) <==> (size as real) / (BytesPerMB as real) > maxSizeMB as real
  {
    size > maxSizeMB * BytesPerMB
  }

  datatype File = File(name: string, mime: string, size: nat)

  /** `${random}-${Date.now()}.${name.split('.').pop()}`. */
  function UploadPath(random: string, now: int, name: string): (r: string)
    // it starts with the random text and a dash
    ensures |random| < |r| && r[..|random|] == random && r[|random|] == '-'
    // and ends with a dot and the name's extension
    ensures var ext := LastSegment(name, '.');
            |ext| < |r| && r[|r| - |ext|..] == ext && r[|r| - |ext| - 1] == '.'
  {
    var mid := "-" + IntToDecimal(now) + ".";
    var ext := LastSegment(name, '.');
    assert mid[0] == '-' && mid[|mid| - 1] == '.';
    ThreeParts(random, mid, ext);
    random + mid + ext
  }

  /** Where the parts of `a + b + c` sit. */
  lemma ThreeParts(a: string, b: string, c: string)
    ensures var s := a + b + c;
            && s[..|a|] == a && s[|a| + |b|..] == c
            && forall k :: 0 <= k < |b| ==> s[|a| + k] == b[k]
  {
  }

  /** The path is the random text, a dash, the time in decimal digits, a dot
      and the file's extension: the text after the name's last dot, or the
      whole name when it has none. */
  lemma UploadPathShape(random: string, now: nat, name: string)
    ensures var ext := LastSegment(name, '.');
            && UploadPath(random, now, name) == random + "-" + NatToDecimal(now) + "." + ext
            && AllDigits(NatToDecimal(now))
            && '.' !in ext && |ext| <= |name| && ext == name[|name| - |ext|..]
            && (|ext| < |name| ==> name[|name| - |ext| - 1] == '.')
  {
    var dec := NatToDecimal(now);
    assert IntToDecimal(now) == dec;
    Regroup(random, dec, LastSegment(name, '.'));
  }

  lemma Regroup(a: string, b: string, c: string)
    ensures a + ("-" + b + ".") + c == a + "-" + b + "." + c
  {
  }

  datatype NoticeType = Success | Error

  datatype Notice = Notice(message: string, kind: NoticeType)

  /** What the storage upload answers: success, or an error with or without a message. */
  datatype UploadReply = Uploaded | UploadFailed(message: Option<string>)

  /** The widget's state: the preview shown and the kind of the last accepted file. */
  datatype Widget = Widget(preview: string, fileType: Option<MediaKind>)

  datatype SelectOutcome = SelectOutcome(widget: Widget, notice: Option<Notice>, uploadedTo: Option<string>, reported: Option<string>)

  function TypeMessage(a: Accept): string
  {
    "Please upload a valid " + (match a case Both => "image or video" case ImageOnly => "image" case VideoOnly => "video") + " file"
  }

  /** `handleFileSelect` followed by `uploadFile`. No file: nothing. A wrong
      type is refused before the size is looked at, and a file over the limit
      is refused; neither is uploaded. Otherwise the file goes to a fresh path;
      on success the preview and the parent get the public URL, on failure the
      preview returns to `currentUrl`. `random` and `now` stand for
      `Math.random().toString(36).substring(2)` and `Date.now()`. The
      intermediate data-URL preview is overwritten by either outcome. */
  function HandleFileSelect(props: Props, w: Widget, file: Option<File>, random: string, now: int, reply: UploadReply, publicUrl: string): (o: SelectOutcome)
    ensures file.None? ==> o == SelectOutcome(w, None, None, None)
    ensures o.uploadedTo.Some? <==> file.Some? && IsValidFileType(props.accept, file.value.mime) && !TooLarge(file.value.size, props.maxSizeMB)
    ensures file.Some? && !IsValidFileType(props.accept, file.value.mime) ==>
              o == SelectOutcome(w, Some(Notice(TypeMessage(props.accept), Error)), None, None)
    ensures file.Some? && IsValidFileType(props.accept, file.value.mime) && TooLarge(file.value.size, props.maxSizeMB) ==>
              o.widget == w && o.uploadedTo.None? && o.reported.None? && o.notice.Some? && o.notice.value.kind == Error
    ensures o.uploadedTo.Some? ==>
              && o.uploadedTo.value == UploadPath(random, now, file.value.name)
              && o.widget.fileType == GetFileType(file.value.mime)
              && (reply == Uploaded ==> o.widget.preview == publicUrl && o.reported == Some(publicUrl) && o.notice == Some(Notice("File uploaded successfully", Success)))
              && (reply.UploadFailed? ==> o.widget.preview == props.currentUrl && o.reported.None?
                                          && o.notice == Some(Notice(OrElse(reply.message, "Failed to upload file"), Error)))
  {
    match file
    case None => SelectOutcome(w, None, None, None)
    case Some(f) =>
      if !IsValidFileType(props.accept, f.mime) then
        SelectOutcome(w, Some(Notice(TypeMessage(props.accept), Error)), None, None)
      else if TooLarge(f.size, props.maxSizeMB) then
        SelectOutcome(w, Some(Notice("File size must be less than " + IntToDecimal(props.maxSizeMB) + "MB", Error)), None, None)
      else
        var path := UploadPath(random, now, f.name);
        var kind := GetFileType(f.mime);
        match reply
        case Uploaded => SelectOutcome(Widget(publicUrl, kind), Some(Notice("File uploaded successfully", Success)), Some(path), Some(publicUrl))
        case UploadFailed(m) => SelectOutcome(Widget(props.currentUrl, kind), Some(Notice(OrElse(m, "Failed to upload file"), Error)), Some(path), None)
  }

  /** A file of exactly the limit is accepted; one byte more is not. */
  lemma SizeLimitIsInclusive(maxSizeMB: nat)
    ensures !TooLarge(maxSizeMB * BytesPerMB, maxSizeMB)
    ensures TooLarge(maxSizeMB * BytesPerMB + 1, maxSizeMB)
  {
  }

  datatype RemoveOutcome = RemoveOutcome(widget: Widget, reported: string)

  /** `handleRemove`: the preview and kind are cleared and the parent is told
      the URL is now empty. */
  function HandleRemove(w: Widget): (o: RemoveOutcome)
    ensures o.widget.preview == "" && o.widget.fileType.None? && o.reported == ""
  {
    RemoveOutcome(Widget("", None), "")
  }

  /** After a removal, a failed upload shows `currentUrl` again, not the empty preview. */
  lemma FailedUploadAfterRemoveShowsCurrent(props: Props, w: Widget, f: File, random: string, now: int, m: Option<string>, publicUrl: string)
    requires IsValidFileType(props.accept, f.mime) && !TooLarge(f.size, props.maxSizeMB)
    ensures HandleFileSelect(props, HandleRemove(w).widget, Some(f), random, now, UploadFailed(m), publicUrl).widget.preview == props.currentUrl
  {
  }
}

=== FILE: js_date.dfy ===
/** `Date.prototype.toISOString` and the compact date the admin receipt label
    derives from it. Parsing a stored timestamp into a `Date` is not modelled:
    the calendar fields are taken as given. */
module JsDate {
  import opened JsText

  /** A date broken into its UTC calendar fields. */
  datatype Instant = Instant(year: int, month: nat, day: nat, hour: nat, minute: nat, second: nat, millis: nat)

  predicate ValidInstant(i: Instant)
  {
    && 1 <= i.month <= 12
    && 1 <= i.day <= 31
    && i.hour < 24 && i.minute < 60 && i.second < 60 && i.millis < 1000
  }

  /** Four digits for years 0..9999, otherwise a sign and six digits. */
  function IsoYear(y: int): string
  {
    if 0 <= y <= 9999 then ZeroPad(y, 4)
    else if y < 0 then "-" + ZeroPad(-y, 6)
    else "+" + ZeroPad(y, 6)
  }

  /** `YYYY-MM-DDTHH:mm:ss.sssZ`. */
  function IsoString(i: Instant): string
  {
    IsoDate(i) + IsoTime(i)
  }

  function IsoDate(i: Instant): string
  {
    IsoYear(i.year) + "-" + ZeroPad(i.month, 2) + "-" + ZeroPad(i.day, 2)
  }

  function IsoTime(i: Instant): string
  {
    "T" + ZeroPad(i.hour, 2) + ":" + ZeroPad(i.minute, 2) + ":" + ZeroPad(i.second, 2)
    + "." + ZeroPad(i.millis, 3) + "Z"
  }

  /** `toISOString().slice(0, 10).replace(/-/g, '')`. */
  function CompactDate(i: Instant): (r: string)
    ensures |r| <= 10
    ensures '-' !in r
  {
    RemoveAll(Prefix(IsoString(i), 10), '-')
  }

  /** The first ten characters of the ISO text are `YYYY-MM-DD`. */
  lemma IsoDatePrefix(i: Instant)
    requires ValidInstant(i) && 0 <= i.year <= 9999
    ensures |ZeroPad(i.year, 4)| == 4 && |ZeroPad(i.month, 2)| == 2 && |ZeroPad(i.day, 2)| == 2
    ensures Prefix(IsoString(i), 10) == ZeroPad(i.year, 4) + "-" + ZeroPad(i.month, 2) + "-" + ZeroPad(i.day, 2)
  {
    assert Pow10(4) == 10000;
    PadWidth(i.year, 4);
    PadWidth(i.month, 2);
    PadWidth(i.day, 2);
    assert Pow10(4) == 10000;
    var head := IsoDate(i);
    assert |head| == 10;
    assert (head + IsoTime(i))[..10] == head;
  }

  lemma PadWidth(n: nat, w: nat)
    requires w == 2 || w == 4
    requires n < Pow10(w)
    ensures |ZeroPad(n, w)| == w
  {
    DecimalLength(n, w);
  }

  lemma DashVanishes()
    ensures RemoveAll("-", '-') == []
  {
  }

  /** Removing the dashes from `y-m-d` leaves `ymd` when the parts hold none. */
  lemma DropDashes(y: string, m: string, d: string)
    requires '-' !in y && '-' !in m && '-' !in d
    ensures RemoveAll(y + "-" + m + "-" + d, '-') == y + m + d
  {
    var a := y + "-";
    var b := a + m;
    var c := b + "-";
    RemoveAllAppend(c, d, '-');
    RemoveAllAppend(b, "-", '-');
    RemoveAllAppend(a, m, '-');
    RemoveAllAppend(y, "-", '-');
    RemoveAllAbsent(y, '-');
    RemoveAllAbsent(m, '-');
    RemoveAllAbsent(d, '-');
    DashVanishes();
    assert RemoveAll(a, '-') == y;
    assert RemoveAll(b, '-') == y + m;
    assert RemoveAll(c, '-') == y + m;
  }

  /** For a four-digit year the compact date is the eight digits YYYYMMDD,
      and read as a number it is year * 10000 + month * 100 + day. */
  lemma CompactDateIsYyyyMmDd(i: Instant)
    requires ValidInstant(i) && 0 <= i.year <= 9999
    ensures CompactDate(i) == ZeroPad(i.year, 4) + ZeroPad(i.month, 2) + ZeroPad(i.day, 2)
    ensures |CompactDate(i)| == 8 && AllDigits(CompactDate(i))
    ensures DecimalValue(CompactDate(i)) == i.year * 10000 + i.month * 100 + i.day
  {
    var y, m, d := ZeroPad(i.year, 4), ZeroPad(i.month, 2), ZeroPad(i.day, 2);
    IsoDatePrefix(i);
    assert '-' !in y && '-' !in m && '-' !in d by {
      assert forall k :: 0 <= k < |y| ==> IsDigit(y[k]);
      assert forall k :: 0 <= k < |m| ==> IsDigit(m[k]);
      assert forall k :: 0 <= k < |d| ==> IsDigit(d[k]);
    }
    DropDashes(y, m, d);
    assert Pow10(2) == 100 && Pow10(4) == 10000;
    DecimalAppend(y + m, d);
    DecimalAppend(y, m);
  }
}

=== FILE: js_text.dfy ===
/** The behaviour of the JavaScript values and string built-ins the application
    relies on: truthiness, `replace(/\D/g, '')`, `toString()` of an integer,
    `padStart`, `slice`, `toUpperCase` and `split(...).pop()`. */
module JsText {
  import opened Wrappers

  predicate IsDigit(c: char)
  {
    '0' <= c <= '9'
  }

  predicate AllDigits(s: string)
  {
    forall i :: 0 <= i < |s| ==> IsDigit(s[i])
  }

  // ---------------------------------------------------------------------------
  // Truthiness

  /** A JSON string field is truthy when present (not null/undefined) and non-empty. */
  predicate IsTruthyText(o: Option<string>)
  {
    o.Some? && o.value != ""
  }

  /** A JSON number field is truthy when present and non-zero. */
  predicate IsTruthyNumber(o: Option<int>)
  {
    o.Some? && o.value != 0
  }

  /** `a || fallback` for an optional string. */
  function OrElse(a: Option<string>, fallback: string): string
  {
    if IsTruthyText(a) then a.value else fallback
  }

  /** A scalar JavaScript value as it appears in a database row. */
  datatype Value = Null | Bool(b: bool) | Num(n: int) | Str(s: string)

  /** A database row as an untyped object: column name to value. */
  type Record = map<string, Value>

  predicate IsTruthy(v: Value)
  {
    match v
    case Null => false
    case Bool(b) => b
    case Num(n) => n != 0
    case Str(s) => s != ""
  }

  /** Property access `r.key`: a missing property reads as undefined. */
  function FieldOf(r: Record, key: string): Value
  {
    if key in r then r[key] else Null
  }

  // ---------------------------------------------------------------------------
  // phone.replace(/\D/g, '')

  /** Every character that is not an ASCII digit removed. */
  function DigitsOnly(s: string): (r: string)
    ensures |r| <= |s|
    ensures AllDigits(r)
  {
    if s == [] then []
    else if IsDigit(s[0]) then [s[0]] + DigitsOnly(s[1..])
    else DigitsOnly(s[1..])
  }

  /** Stripping works piecewise: the digits of `s + t` are the digits of `s`
      followed by the digits of `t`, so the order of the digits is kept. */
  lemma {:induction false} DigitsOnlyAppend(s: string, t: string)
    ensures DigitsOnly(s + t) == DigitsOnly(s) + DigitsOnly(t)
  {
    if s == [] {
      assert s + t == t;
    } else {
      assert (s + t)[0] == s[0];
      assert (s + t)[1..] == s[1..] + t;
      DigitsOnlyAppend(s[1..], t);
    }
  }

  /** A string of digits is left as it is. */
  lemma {:induction false} DigitsOnlyKeepsDigits(s: string)
    requires AllDigits(s)
    ensures DigitsOnly(s) == s
  {
    if s != [] {
      DigitsOnlyKeepsDigits(s[1..]);
    }
  }

  /** Each digit of the input occurs in the output as often as in the input. */
  lemma {:induction false} DigitsOnlyKeepsEveryDigit(s: string, c: char)
    requires IsDigit(c)
    ensures multiset(DigitsOnly(s))[c] == multiset(s)[c]
  {
    if s != [] {
      assert s == [s[0]] + s[1..];
      DigitsOnlyKeepsEveryDigit(s[1..], c);
    }
  }

  // ---------------------------------------------------------------------------
  // Number.prototype.toString() on integers, and its inverse

  function DigitChar(d: nat): char
    requires d < 10
  {
    ('0' as int + d) as char
  }

  function DigitValue(c: char): nat
    requires IsDigit(c)
  {
    c as int - '0' as int
  }

  /** Decimal rendering of a natural number, most significant digit first. */
  function NatToDecimal(n: nat): (r: string)
    ensures |r| >= 1
    ensures AllDigits(r)
    ensures n > 0 ==> r[0] != '0'
    decreases n
  {
    if n < 10 then [DigitChar(n)] else NatToDecimal(n / 10) + [DigitChar(n % 10)]
  }

  /** The number a string of decimal digits denotes. */
  function DecimalValue(s: string): nat
    requires AllDigits(s)
  {
    if s == [] then 0 else DecimalValue(s[..|s| - 1]) * 10 + DigitValue(s[|s| - 1])
  }

  /** Reading back a rendered number gives the number. */
  lemma {:induction false} DecimalRoundTrip(n: nat)
    ensures DecimalValue(NatToDecimal(n)) == n
    decreases n
  {
    if n >= 10 {
      var s := NatToDecimal(n);
      assert s[..|s| - 1] == NatToDecimal(n / 10);
      DecimalRoundTrip(n / 10);
    }
  }

  /** `n.toString()` for an integer (no exponent form below 10^21). */
  function IntToDecimal(n: int): string
  {
    if n < 0 then "-" + NatToDecimal(-n) else NatToDecimal(n)
  }

  /** Two different integers never render to the same text. */
  lemma IntToDecimalInjective(a: int, b: int)
    requires IntToDecimal(a) == IntToDecimal(b)
    ensures a == b
  {
    assert (a < 0) == (b < 0) by {
      assert IntToDecimal(a)[0] == IntToDecimal(b)[0];
    }
    if a < 0 {
      assert NatToDecimal(-a) == IntToDecimal(a)[1..];
      assert NatToDecimal(-b) == IntToDecimal(b)[1..];
      DecimalRoundTrip(-a);
      DecimalRoundTrip(-b);
    } else {
      DecimalRoundTrip(a);
      DecimalRoundTrip(b);
    }
  }

  /** Digits of a concatenation: the left part is shifted by the width of the right part. */
  lemma {:induction false} DecimalAppend(a: string, b: string)
    requires AllDigits(a) && AllDigits(b)
    ensures AllDigits(a + b)
    ensures DecimalValue(a + b) == DecimalValue(a) * Pow10(|b|) + DecimalValue(b)
    decreases |b|
  {
    if b == [] {
      assert a + b == a;
    } else {
      var u := a + b;
      var b' := b[..|b| - 1];
      assert u[..|u| - 1] == a + b';
      assert u[|u| - 1] == b[|b| - 1];
      DecimalAppend(a, b');
      assert Pow10(|b|) == 10 * Pow10(|b'|);
      ShiftDigit(DecimalValue(a), Pow10(|b'|), DecimalValue(b'), DigitValue(b[|b| - 1]));
    }
  }

  lemma ShiftDigit(x: int, p: int, y: int, c: int)
    ensures (x * p + y) * 10 + c == x * (10 * p) + (y * 10 + c)
  {
  }

  function Pow10(k: nat): nat
  {
    if k == 0 then 1 else 10 * Pow10(k - 1)
  }

  /** A number below 10^k needs at most k digits. */
  lemma {:induction false} DecimalLength(n: nat, k: nat)
    requires 1 <= k && n < Pow10(k)
    ensures |NatToDecimal(n)| <= k
    decreases n
  {
    if n >= 10 {
      DecimalLength(n / 10, k - 1);
    }
  }

  // ---------------------------------------------------------------------------
  // String(n).padStart(w, '0')

  function Zeros(k: nat): (r: string)
    ensures |r| == k
    ensures forall i :: 0 <= i < k ==> r[i] == '0'
  {
    if k == 0 then [] else Zeros(k - 1) + ['0']
  }

  /** A run of zeros denotes zero. */
  lemma {:induction false} ZerosValue(k: nat)
    ensures AllDigits(Zeros(k))
    ensures DecimalValue(Zeros(k)) == 0
  {
    if k > 0 {
      var z := Zeros(k);
      assert z[..k - 1] == Zeros(k - 1);
      ZerosValue(k - 1);
    }
  }

  /** Leading zeros do not change the number a digit string denotes. */
  lemma LeadingZeros(k: nat, s: string)
    requires AllDigits(s)
    ensures AllDigits(Zeros(k) + s)
    ensures DecimalValue(Zeros(k) + s) == DecimalValue(s)
  {
    ZerosValue(k);
    DecimalAppend(Zeros(k), s);
  }

  /** The number rendered in decimal and left-padded with zeros to width `w`. */
  function ZeroPad(n: nat, w: nat): (r: string)
    ensures AllDigits(r)
    ensures |NatToDecimal(n)| <= w ==> |r| == w
    ensures DecimalValue(r) == n
  {
    var d := NatToDecimal(n);
    LeadingZeros(if |d| < w then w - |d| else 0, d);
    DecimalRoundTrip(n);
    Zeros(if |d| < w then w - |d| else 0) + d
  }

  // ---------------------------------------------------------------------------
  // startsWith, slice(0, k), replace(/c/g, ''), toUpperCase, split(sep).pop()

  predicate StartsWith(s: string, prefix: string)
  {
    |prefix| <= |s| && s[..|prefix|] == prefix
  }

  /** `s.slice(0, k)`. */
  function Prefix<T>(s: seq<T>, k: nat): (r: seq<T>)
    ensures |r| == if |s| <= k then |s| else k
    ensures r == s[..|r|]
  {
    if |s| <= k then s else s[..k]
  }

  /** `s.replace(/c/g, '')`: every occurrence of `c` removed. */
  function RemoveAll(s: string, c: char): (r: string)
    ensures c !in r
    ensures |r| <= |s|
  {
    if s == [] then []
    else if s[0] == c then RemoveAll(s[1..], c)
    else [s[0]] + RemoveAll(s[1..], c)
  }

  lemma {:induction false} RemoveAllAppend(s: string, t: string, c: char)
    ensures RemoveAll(s + t, c) == RemoveAll(s, c) + RemoveAll(t, c)
  {
    if s == [] {
      assert s + t == t;
    } else {
      assert (s + t)[0] == s[0];
      assert (s + t)[1..] == s[1..] + t;
      RemoveAllAppend(s[1..], t, c);
    }
  }

  lemma {:induction false} RemoveAllAbsent(s: string, c: char)
    requires c !in s
    ensures RemoveAll(s, c) == s
  {
    if s != [] {
      RemoveAllAbsent(s[1..], c);
    }
  }

  /** `toUpperCase` on one character, for the ASCII letters. */
  function UpperChar(c: char): char
  {
    if 'a' <= c <= 'z' then (c as int - 32) as char else c
  }

  /** `toUpperCase` on text: every ASCII lower-case letter becomes its
      capital, and every other character is kept. */
  function UpperAscii(s: string): (r: string)
    ensures |r| == |s|
    ensures forall k :: 0 <= k < |r| ==> !('a' <= r[k] <= 'z')
    ensures forall k :: 0 <= k < |s| && 'a' <= s[k] <= 'z' ==>
              'A' <= r[k] <= 'Z' && r[k] as int - 'A' as int == s[k] as int - 'a' as int
    ensures forall k :: 0 <= k < |s| && !('a' <= s[k] <= 'z') ==> r[k] == s[k]
  {
    seq(|s|, i requires 0 <= i < |s| => UpperChar(s[i]))
  }

  /** `s.split(sep).pop()`: the text after the last `sep`, or all of `s` when
      there is none. */
  function LastSegment(s: string, sep: char): (r: string)
    ensures sep !in r
    ensures |r| <= |s| && s[|s| - |r|..] == r
    ensures |r| < |s| ==> s[|s| - |r| - 1] == sep
  {
    if s == [] then []
    else if s[|s| - 1] == sep then []
    else
      var r := LastSegment(s[..|s| - 1], sep);
      r + [s[|s| - 1]]
  }
}

=== FILE: mobile_initiate.dfy ===
/** `POST /api/payments/initiate`: start a mobile-money payment for an existing
    donation with MTN MoMo or Airtel Money, then record the provider's reference
    on the donation and mark it processing. */
module MobileInitiate {
  import opened Wrappers
  import opened JsText
  import opened Donations

  /** The JSON body; a missing or null field is `None`. */
  datatype Request = Request(donationId: Option<string>, paymentMethod: Option<string>, amount: Option<int>, phoneNumber: Option<string>)

  predicate HasRequiredFields(r: Request)
  {
    IsTruthyText(r.donationId) && IsTruthyText(r.paymentMethod) && IsTruthyNumber(r.amount) && IsTruthyText(r.phoneNumber)
  }

  /** The payment request sent to the provider. */
  datatype ProviderCall =
    | MtnRequestToPay(xReferenceId: string, amount: int, externalId: string, partyId: string, payeeNote: string)
    | AirtelPayment(reference: Option<string>, msisdn: string, amount: int, transactionId: string)
  {
    /** The payer's phone number as sent. */
    function Phone(): string
    {
      match this
      case MtnRequestToPay(_, _, _, p, _) => p
      case AirtelPayment(_, p, _, _) => p
    }
  }

  /** MTN's answer: a network or JSON error, or an HTTP answer that is or is not
      ok with an error payload that may carry a message. */
  datatype MtnReply = MtnThrew(thrown: string) | MtnAnswered(ok: bool, message: Option<string>)

  /** Airtel's answer: a network or JSON error, or an HTTP answer with the
      envelope `status.code` / `status.message` and `data.transaction.id`. */
  datatype AirtelReply =
    | AirtelThrew(thrown: string)
    | AirtelAnswered(ok: bool, statusCode: Option<string>, statusMessage: Option<string>, transactionId: Option<string>)

  /** What an adapter returns to the handler: the reference to poll with, or the error it throws. */
  datatype Adapter = Initiated(referenceId: string) | AdapterError(message: string)

  datatype Body = ErrorBody(error: string) | Started(referenceId: string, status: string)

  /** JavaScript template-literal rendering of a nullable string. */
  function TemplateText(o: Option<string>): string
  {
    o.GetOr("null")
  }

  /** `initiateMTNPayment`: the reference is the freshly generated
      X-Reference-Id; success needs only an ok HTTP status. */
  function MtnAdapter(reply: MtnReply, xReferenceId: string): (a: Adapter)
    ensures a.Initiated? <==> reply.MtnAnswered? && reply.ok
    ensures a.Initiated? ==> a.referenceId == xReferenceId
    ensures a.AdapterError? ==> StartsWith(a.message, "MTN payment failed: ")
  {
    var inner :=
      match reply
      case MtnThrew(m) => m
      case MtnAnswered(ok, m) => OrElse(m, "MTN payment failed");
    if reply.MtnAnswered? && reply.ok then Initiated(xReferenceId)
    else
      var msg := "MTN payment failed: " + inner;
      assert msg[..|"MTN payment failed: "|] == "MTN payment failed: ";
      AdapterError(msg)
  }

  /** `initiateAirtelPayment`: success needs an ok HTTP status and the
      envelope code `'200'`; the reference is Airtel's transaction id when it
      sent one, otherwise the donation id the handler passed in. */
  function AirtelAdapter(reply: AirtelReply, donationId: string): (a: Adapter)
    ensures a.Initiated? <==> reply.AirtelAnswered? && reply.ok && reply.statusCode == Some("200")
    ensures a.Initiated? && IsTruthyText(reply.transactionId) ==> a.referenceId == reply.transactionId.value
    ensures a.Initiated? && !IsTruthyText(reply.transactionId) ==> a.referenceId == donationId
    ensures a.AdapterError? ==> StartsWith(a.message, "Airtel payment failed: ")
  {
    var inner :=
      match reply
      case AirtelThrew(m) => m
      case AirtelAnswered(_, _, m, _) => OrElse(m, "Airtel payment failed");
    if reply.AirtelAnswered? && reply.ok && reply.statusCode == Some("200") then
      Initiated(OrElse(reply.transactionId, donationId))
    else
      var msg := "Airtel payment failed: " + inner;
      assert msg[..|"Airtel payment failed: "|] == "Airtel payment failed: ";
      AdapterError(msg)
  }

  /** The handler. `xReferenceId` stands for the UUID the MTN adapter
      generates; both provider replies are inputs, and only the one for the
      requested method is consulted. */
  function Post(req: Request, t: Table, xReferenceId: string, mtn: MtnReply, airtel: AirtelReply): (h: Handled<Body, ProviderCall>)
    // missing fields, unknown donation, unsupported method: refused before any provider call
    ensures !HasRequiredFields(req) ==> h.httpStatus == 400 && h.table == t && h.call.None?
    ensures HasRequiredFields(req) && SingleById(t, req.donationId.value).None? ==>
              h.httpStatus == 404 && h.table == t && h.call.None?
    ensures HasRequiredFields(req) && SingleById(t, req.donationId.value).Some?
            && req.paymentMethod.value != "mtn" && req.paymentMethod.value != "airtel" ==>
              h.httpStatus == 400 && h.table == t && h.call.None?
    // the phone the provider sees is the input with its non-digits removed
    ensures h.call.Some? ==> h.call.value.Phone() == DigitsOnly(req.phoneNumber.value)
    ensures h.call.Some? && h.call.value.MtnRequestToPay? ==> h.call.value.xReferenceId == xReferenceId
    // a failed adapter answers 500 and writes nothing
    ensures h.httpStatus != 200 ==> h.table == t
    ensures h.call.Some? && h.httpStatus != 200 ==> h.httpStatus == 500
    ensures h.httpStatus == 200 <==>
              h.call.Some? &&
              (if req.paymentMethod == Some("mtn") then mtn.MtnAnswered? && mtn.ok
               else airtel.AirtelAnswered? && airtel.ok && airtel.statusCode == Some("200"))
    // on success exactly the row with that id gets the reference and the processing status
    ensures h.httpStatus == 200 ==>
              && h.body.Started?
              && h.body.status == "processing"
              && CountMatches(t, ById(req.donationId.value)) == 1
              && |h.table| == |t|
              && (forall i :: 0 <= i < |t| && t[i].id != req.donationId.value ==> h.table[i] == t[i])
              && (forall i :: 0 <= i < |t| && t[i].id == req.donationId.value ==>
                    h.table[i] == t[i].(paymentReference := Some(h.body.referenceId), paymentStatus := Processing))
    ensures h.httpStatus == 200 && req.paymentMethod == Some("mtn") ==> h.body.referenceId == xReferenceId
    ensures h.httpStatus == 200 && req.paymentMethod == Some("airtel") ==>
              h.body.referenceId == OrElse(airtel.transactionId, req.donationId.value)
  {
    if !HasRequiredFields(req) then
      Handled(400, ErrorBody("Missing required fields"), t, None)
    else
      var id := req.donationId.value;
      var how := req.paymentMethod.value;
      var amount := req.amount.value;
      var phone := req.phoneNumber.value;
      match SingleById(t, id)
      case None => Handled(404, ErrorBody("Donation not found"), t, None)
      case Some(donation) =>
        if how == "mtn" then
          var call := MtnRequestToPay(xReferenceId, amount, id, DigitsOnly(phone), "Donation - " + TemplateText(donation.receiptNumber));
          Finish(t, id, call, MtnAdapter(mtn, xReferenceId))
        else if how == "airtel" then
          var call := AirtelPayment(donation.receiptNumber, DigitsOnly(phone), amount, id);
          Finish(t, id, call, AirtelAdapter(airtel, id))
        else
          Handled(400, ErrorBody("Unsupported payment method"), t, None)
  }

  /** After the adapter returns: on success the update by id, on error a 500
      with the adapter's message and no write. */
  function Finish(t: Table, id: string, call: ProviderCall, a: Adapter): Handled<Body, ProviderCall>
  {
    match a
    case AdapterError(m) => Handled(500, ErrorBody(m), t, Some(call))
    case Initiated(ref) =>
      var t' := Update(t, ById(id), Patch(Some(Processing), Some(Some(ref)), None));
      Handled(200, Started(ref, "processing"), t', Some(call))
  }
}

=== FILE: mobile_status.dfy ===
/** `POST /api/payments/status`: ask MTN or Airtel for the status of a payment,
    map it to a donation status and write it, with `receipt_generated`, on every
    donation whose `payment_reference` is the queried reference. */
module MobileStatus {
  import opened Wrappers
  import opened JsText
  import opened Donations
  import opened Providers

  datatype Request = Request(referenceId: Option<string>, provider: Option<string>)

  /** The status query sent to a provider. */
  datatype StatusQuery = MtnQuery(reference: string) | AirtelQuery(reference: string)

  /** MTN's status answer (`status`), or the error a failed fetch or JSON parse throws. */
  datatype MtnStatusReply = MtnStatusThrew(thrown: string) | MtnStatusAnswered(status: Option<string>)

  /** Airtel's status answer (`status.code`, `data.transaction.status`), or a thrown error. */
  datatype AirtelStatusReply =
    | AirtelStatusThrew(thrown: string)
    | AirtelStatusAnswered(code: Option<string>, transactionStatus: Option<string>)

  datatype Body = ErrorBody(error: string) | StatusBody(status: string)

  /** The status the handler writes when the provider answered; a provider
      other than `mtn` and `airtel` leaves the initial `failed`. */
  function ResolvedStatus(provider: string, mtn: MtnStatusReply, airtel: AirtelStatusReply): PayStatus
  {
    if provider == "mtn" && mtn.MtnStatusAnswered? then MtnStatus(mtn.status)
    else if provider == "airtel" && airtel.AirtelStatusAnswered? then AirtelStatus(airtel.code, airtel.transactionStatus)
    else Failed
  }

  /** The handler; both provider replies are inputs and only the one named by
      `provider` is consulted. */
  function Post(req: Request, t: Table, mtn: MtnStatusReply, airtel: AirtelStatusReply): (h: Handled<Body, StatusQuery>)
    ensures !IsTruthyText(req.referenceId) || !IsTruthyText(req.provider) ==>
              h.httpStatus == 400 && h.table == t && h.call.None?
    // an error thrown by the provider adapter: 500 and no write
    ensures h.httpStatus == 500 <==>
              IsTruthyText(req.referenceId) && IsTruthyText(req.provider) &&
              ((req.provider.value == "mtn" && mtn.MtnStatusThrew?) ||
               (req.provider.value == "airtel" && airtel.AirtelStatusThrew?))
    ensures h.httpStatus != 200 ==> h.table == t
    ensures h.call.Some? <==> IsTruthyText(req.referenceId) && req.provider in {Some("mtn"), Some("airtel")}
    ensures h.call.Some? ==> h.call.value.reference == req.referenceId.value
    // an unknown provider still writes `failed`
    ensures IsTruthyText(req.referenceId) && IsTruthyText(req.provider) && req.provider.value !in {"mtn", "airtel"} ==>
              h.httpStatus == 200 && h.body == StatusBody("failed")
    // the answer names the status written, which is one of the three settled values
    ensures h.httpStatus == 200 ==>
              exists s: PayStatus ::
                && s != Pending
                && h.body == StatusBody(StatusText(s))
                && |h.table| == |t|
                && (forall i :: 0 <= i < |t| && t[i].paymentReference == req.referenceId ==>
                      h.table[i] == t[i].(paymentStatus := s, receiptGenerated := s == Success))
                && (forall i :: 0 <= i < |t| && t[i].paymentReference != req.referenceId ==> h.table[i] == t[i])
    // MTN answered: its status, mapped, is returned and written on every row with the reference
    ensures IsTruthyText(req.referenceId) && req.provider == Some("mtn") && mtn.MtnStatusAnswered? ==>
              && h.httpStatus == 200
              && h.body == StatusBody(StatusText(MtnStatus(mtn.status)))
              && forall i :: 0 <= i < |t| && t[i].paymentReference == req.referenceId ==>
                   h.table[i].paymentStatus == MtnStatus(mtn.status)
                   && h.table[i].receiptGenerated == (MtnStatus(mtn.status) == Success)
    // Airtel answered: likewise with its code and transaction status
    ensures IsTruthyText(req.referenceId) && req.provider == Some("airtel") && airtel.AirtelStatusAnswered? ==>
              && h.httpStatus == 200
              && h.body == StatusBody(StatusText(AirtelStatus(airtel.code, airtel.transactionStatus)))
              && forall i :: 0 <= i < |t| && t[i].paymentReference == req.referenceId ==>
                   h.table[i].paymentStatus == AirtelStatus(airtel.code, airtel.transactionStatus)
                   && h.table[i].receiptGenerated == (AirtelStatus(airtel.code, airtel.transactionStatus) == Success)
    // an unknown provider writes `failed` on those rows
    ensures IsTruthyText(req.referenceId) && IsTruthyText(req.provider) && req.provider.value !in {"mtn", "airtel"} ==>
              forall i :: 0 <= i < |t| && t[i].paymentReference == req.referenceId ==>
                h.table[i].paymentStatus == Failed && !h.table[i].receiptGenerated
    // so every row it writes links `receipt_generated` to success
    ensures h.httpStatus == 200 ==>
              forall i :: 0 <= i < |t| && t[i].paymentReference == req.referenceId ==> ReceiptConsistent(h.table[i])
  {
    if !IsTruthyText(req.referenceId) || !IsTruthyText(req.provider) then
      Handled(400, ErrorBody("Missing required fields"), t, None)
    else
      var ref := req.referenceId.value;
      var provider := req.provider.value;
      var call: Option<StatusQuery> :=
        if provider == "mtn" then Some(MtnQuery(ref))
        else if provider == "airtel" then Some(AirtelQuery(ref))
        else None;
      if provider == "mtn" && mtn.MtnStatusThrew? then
        Handled(500, ErrorBody(OrElse(Some(mtn.thrown), "Status check failed")), t, call)
      else if provider == "airtel" && airtel.AirtelStatusThrew? then
        Handled(500, ErrorBody(OrElse(Some(airtel.thrown), "Status check failed")), t, call)
      else
        var s := ResolvedStatus(provider, mtn, airtel);
        var t' := Update(t, ByReference(ref), Patch(Some(s), None, Some(s == Success)));
        Handled(200, StatusBody(StatusText(s)), t', call)
  }

  /** Nothing protects a settled donation: a later `PENDING` from MTN turns a
      successful row back into a processing one with no receipt. */
  lemma SettledRowsAreNotProtected(t: Table, i: nat, ref: string, airtel: AirtelStatusReply)
    requires i < |t| && ref != "" && t[i].paymentReference == Some(ref) && t[i].paymentStatus == Success
    ensures var h := Post(Request(Some(ref), Some("mtn")), t, MtnStatusAnswered(Some("PENDING")), airtel);
            h.table[i].paymentStatus == Processing && !h.table[i].receiptGenerated
  {
  }
}

=== FILE: order_index.dfy ===
/** `(list.length > 0 ? Math.max(...list.map(x => x.order_index)) : 0) + 1`:
    the position a new slide, about section or objective is given. */
module OrderIndex {

  /** `list.map(x => x.order_index)`: the index of each listed row, in list order. */
  function IndexesOf<T>(s: seq<T>, index: T -> int): (r: seq<int>)
    ensures |r| == |s| && forall i :: 0 <= i < |s| ==> r[i] == index(s[i])
  {
    seq(|s|, i requires 0 <= i < |s| => index(s[i]))
  }

  function Max(xs: seq<int>): (m: int)
    requires xs != []
    ensures forall i :: 0 <= i < |xs| ==> xs[i] <= m
    ensures exists i :: 0 <= i < |xs| && xs[i] == m
  {
    if |xs| == 1 then xs[0]
    else
      var rest := Max(xs[1..]);
      assert forall i :: 1 <= i < |xs| ==> xs[i] == xs[1..][i - 1];
      if xs[0] >= rest then xs[0] else rest
  }

  /** One more than the largest index in use, or 1 for an empty list. */
  function NextOrderIndex(xs: seq<int>): (r: int)
    ensures xs == [] ==> r == 1
    ensures forall i :: 0 <= i < |xs| ==> xs[i] < r
    ensures xs != [] ==> exists i :: 0 <= i < |xs| && r == xs[i] + 1
  {
    if xs == [] then 1 else Max(xs) + 1
  }

  /** The new index is the least value above every index in use. */
  lemma NextIsLeastAbove(xs: seq<int>, k: int)
    requires xs != []
    requires forall i :: 0 <= i < |xs| ==> xs[i] < k
    ensures NextOrderIndex(xs) <= k
  {
  }

  /** An item appended with the allocated index keeps a list sorted by index
      sorted, and strictly so at its end. */
  lemma AppendKeepsSorted(xs: seq<int>)
    requires forall i, j :: 0 <= i <= j < |xs| ==> xs[i] <= xs[j]
    ensures var ys := xs + [NextOrderIndex(xs)];
            forall i, j :: 0 <= i <= j < |ys| ==> ys[i] <= ys[j]
  {
  }

  /** Allocating twice, each time from the list so far, gives distinct indices. */
  lemma SuccessiveAllocationsDiffer(xs: seq<int>)
    ensures NextOrderIndex(xs + [NextOrderIndex(xs)]) == NextOrderIndex(xs) + 1
  {
    var ys := xs + [NextOrderIndex(xs)];
    var m := NextOrderIndex(ys);
    assert ys[|xs|] < m;
    var i :| 0 <= i < |ys| && m == ys[i] + 1;
    if i < |xs| {
      assert ys[i] == xs[i];
    }
  }
}

=== FILE: payment_flow.dfy ===
/** How the payment routes fit together when called one after another on the
    same table: the reference an initiate route records is the one the later
    status check, verification or webhook looks the donation up by. */
module PaymentFlow {
  import opened Wrappers
  import opened JsText
  import opened Donations
  import opened Providers
  import MobileInitiate
  import MobileStatus
  import CardInitiate
  import CardWebhook
  import JsDate
  import DonateForm

  /** A mobile-money payment started for a donation is found by the status
      check for the reference the initiate route returned: once that check
      answers 200, the donation holds a settled status and a receipt flag that
      agrees with it. */
  lemma MobileStatusFindsInitiatedDonation(
    req: MobileInitiate.Request, t: Table, xReferenceId: string,
    mtn: MobileInitiate.MtnReply, airtel: MobileInitiate.AirtelReply,
    mtnStatus: MobileStatus.MtnStatusReply, airtelStatus: MobileStatus.AirtelStatusReply, i: nat)
    requires MobileInitiate.Post(req, t, xReferenceId, mtn, airtel).httpStatus == 200
    requires req.paymentMethod == Some("mtn") ==> xReferenceId != ""
    requires i < |t| && t[i].id == req.donationId.value
    ensures var h := MobileInitiate.Post(req, t, xReferenceId, mtn, airtel);
            var query := MobileStatus.Request(Some(h.body.referenceId), req.paymentMethod);
            var s := MobileStatus.Post(query, h.table, mtnStatus, airtelStatus);
            && h.table[i].paymentStatus == Processing
            && (s.httpStatus == 200 ==> s.table[i].paymentStatus != Pending && ReceiptConsistent(s.table[i]))
            && (s.httpStatus != 200 ==> s.table[i] == h.table[i])
  {
    var h := MobileInitiate.Post(req, t, xReferenceId, mtn, airtel);
    assert h.table[i].paymentReference == Some(h.body.referenceId);
    assert h.body.referenceId != "";
  }

  /** A card payment started for a donation is settled by the webhook for its
      receipt number: with unique receipt numbers the webhook overwrites that
      donation, and the receipt flag agrees with the status it writes. */
  lemma CardWebhookSettlesInitiatedDonation(
    req: CardInitiate.Request, t: Table, reply: CardInitiate.InitReply,
    signature: string, charge: CardWebhook.Charge, i: nat)
    requires UniqueReceipts(t)
    requires CardInitiate.Post(req, t, reply).call.Some? && CardInitiate.Accepted(reply)
    requires i < |t| && t[i].id == req.donationId.value && t[i].receiptNumber.Some?
    requires signature != "" && charge.txRef == t[i].receiptNumber && charge.id.Some?
    ensures var h := CardInitiate.Post(req, t, reply);
            var event := CardWebhook.Event(Some("charge.completed"), Some(charge));
            var w := CardWebhook.Post(CardWebhook.Delivery(Some(event), Some(signature)), Some(signature), h.table);
            && w.httpStatus == 200
            && w.table[i].paymentStatus == FlutterwaveStatus(charge.status)
            && w.table[i].paymentReference == Some(IntToDecimal(charge.id.value))
            && ReceiptConsistent(w.table[i])
  {
    var h := CardInitiate.Post(req, t, reply);
    assert forall k :: 0 <= k < |t| ==> h.table[k].receiptNumber == t[k].receiptNumber;
    assert UniqueReceipts(h.table);
    FirstByReceiptFindsRow(h.table, i);
  }

  /** The receipt number a donor is thanked with is stored as the payment
      reference, not as the receipt number: the card routes' lookup by
      receipt number finds exactly what it found before the submission and
      never the submitted row. */
  lemma SubmittedReceiptIsNotLookedUp(
    f: DonateForm.FormData, isEmail: string -> bool, t: Table, receipt: string, id: string, createdAt: JsDate.Instant)
    requires DonateForm.Issues(f, isEmail) == []
    ensures var o := DonateForm.Submit(f, isEmail, t, receipt, id, createdAt, true);
            && o.table[|t|].paymentReference == Some(receipt)
            && FirstMatch(o.table, ByReceipt(receipt)) == FirstMatch(t, ByReceipt(receipt))
            && FirstMatch(o.table, ByReceipt(receipt)) != Some(|t|)
  {
    var o := DonateForm.Submit(f, isEmail, t, receipt, id, createdAt, true);
    assert |o.table| == |t| + 1 && o.table[..|t|] == t && o.table[|t|].receiptNumber.None?;
    AppendedRowMisses(t, o.table, receipt);
  }

  /** A table that grew by one row with no receipt number answers a lookup by
      receipt number as before. */
  lemma AppendedRowMisses(t: Table, u: Table, receipt: string)
    requires |u| == |t| + 1 && u[..|t|] == t && u[|t|].receiptNumber.None?
    ensures FirstMatch(u, ByReceipt(receipt)) == FirstMatch(t, ByReceipt(receipt))
    ensures FirstMatch(u, ByReceipt(receipt)) != Some(|t|)
  {
    assert u == t + [u[|t|]];
    FirstMatchAppendMiss(t, u[|t|], ByReceipt(receipt));
  }
}

=== FILE: providers.dfy ===
/** How each payment provider's status vocabulary is read as a donation status.
    Each mapping yields one of success, processing and failed, never pending. */
module Providers {
  import opened Wrappers
  import opened Donations

  /** MTN MoMo request-to-pay status: `SUCCESSFUL`, `PENDING`, anything else. */
  function MtnStatus(reported: Option<string>): (s: PayStatus)
    ensures s == Success <==> reported == Some("SUCCESSFUL")
    ensures s == Processing <==> reported == Some("PENDING")
    ensures s != Pending
  {
    if reported == Some("SUCCESSFUL") then Success
    else if reported == Some("PENDING") then Processing
    else Failed
  }

  /** Airtel Money: success needs both the envelope code `200` and the
      transaction status `TS`; `TP` is in progress whatever the code. */
  function AirtelStatus(code: Option<string>, transaction: Option<string>): (s: PayStatus)
    ensures s == Success <==> code == Some("200") && transaction == Some("TS")
    ensures s == Processing <==> transaction == Some("TP")
    ensures s != Pending
  {
    if code == Some("200") && transaction == Some("TS") then Success
    else if transaction == Some("TP") then Processing
    else Failed
  }

  /** Flutterwave charge status, read the same way by the verify route and the
      webhook: `successful`, `failed`, and anything else still in progress. */
  function FlutterwaveStatus(reported: Option<string>): (s: PayStatus)
    ensures s == Success <==> reported == Some("successful")
    ensures s == Failed <==> reported == Some("failed")
    ensures s != Pending
  {
    if reported == Some("successful") then Success
    else if reported == Some("failed") then Failed
    else Processing
  }
}

=== FILE: slides.dfy ===
/** The admin page for the home-page slides: creating and editing a slide, and
    moving a slide one place up or down by swapping it with its neighbour and
    renumbering the whole list. */
module Slides {
  import opened Wrappers
  import opened JsText
  import opened OrderIndex

  /** One row of `hello_slides`. */
  datatype Slide = Slide(id: string, imageUrl: string, description: Option<string>, orderIndex: int, direction: string, isActive: bool)

  /** The list as loaded: ascending `order_index`. The table is the same rows in
      storage order; a write finds its row by id. */
  type SlideList = seq<Slide>

  predicate UniqueIds(s: SlideList)
  {
    forall i, j :: 0 <= i < j < |s| ==> s[i].id != s[j].id
  }

  function IndexOfSlide(s: Slide): int
  {
    s.orderIndex
  }

  // ---------------------------------------------------------------------------
  // The slide form

  datatype SlideForm = SlideForm(imageUrl: string, description: string, direction: string, isActive: bool)

  const EmptyForm := SlideForm("", "", "left", true)

  /** The form, the slide being edited (`null` when adding) and the modal flag. */
  datatype Editor = Editor(form: SlideForm, editing: Option<Slide>, modalOpen: bool)

  const ClosedEditor := Editor(EmptyForm, None, false)

  /** `openEditModal`: the form shows the slide, a null description as empty text. */
  function OpenEdit(s: Slide): (e: Editor)
    ensures e.editing == Some(s) && e.modalOpen
    ensures e.form.imageUrl == s.imageUrl && e.form.direction == s.direction && e.form.isActive == s.isActive
    ensures s.description.Some? ==> e.form.description == s.description.value
    ensures s.description.None? ==> e.form.description == ""
  {
    Editor(SlideForm(s.imageUrl, OrElse(s.description, ""), s.direction, s.isActive), Some(s), true)
  }

  /** The four columns an edit writes. */
  function Edited(s: Slide, f: SlideForm): Slide
  {
    s.(imageUrl := f.imageUrl, description := Some(f.description), direction := f.direction, isActive := f.isActive)
  }

  function EditRows(t: SlideList, id: string, f: SlideForm): (r: SlideList)
    ensures |r| == |t|
    ensures forall i :: 0 <= i < |t| ==> r[i] == if t[i].id == id then Edited(t[i], f) else t[i]
  {
    seq(|t|, i requires 0 <= i < |t| => if t[i].id == id then Edited(t[i], f) else t[i])
  }

  /** A new slide from the form, placed after every listed slide. */
  function NewSlide(list: SlideList, f: SlideForm, newId: string): Slide
  {
    Slide(newId, f.imageUrl, Some(f.description), NextOrderIndex(IndexesOf(list, IndexOfSlide)), f.direction, f.isActive)
  }

  datatype Notice = Saved | SaveFailed

  datatype SubmitOutcome = SubmitOutcome(table: SlideList, editor: Editor, notice: Notice)

  /** `handleSubmit`: with a slide under edit its row is updated, otherwise a
      slide is inserted with the next order index. On success the editor is
      reset and closed; on error it is left as it was. `newId` stands for the
      id the database assigns. */
  function Submit(e: Editor, list: SlideList, t: SlideList, newId: string, ok: bool): (o: SubmitOutcome)
    ensures !ok ==> o.table == t && o.editor == e && o.notice == SaveFailed
    ensures ok ==> o.editor == ClosedEditor && o.notice == Saved
    ensures ok && e.editing.Some? ==>
              |o.table| == |t|
              && forall i :: 0 <= i < |t| ==>
                   && o.table[i].id == t[i].id
                   && o.table[i].orderIndex == t[i].orderIndex
                   && (t[i].id != e.editing.value.id ==> o.table[i] == t[i])
                   && (t[i].id == e.editing.value.id ==>
                         o.table[i].imageUrl == e.form.imageUrl && o.table[i].description == Some(e.form.description)
                         && o.table[i].direction == e.form.direction && o.table[i].isActive == e.form.isActive)
    ensures ok && e.editing.None? ==>
              |o.table| == |t| + 1 && o.table[..|t|] == t
              && o.table[|t|].id == newId
              && o.table[|t|].imageUrl == e.form.imageUrl && o.table[|t|].description == Some(e.form.description)
              && o.table[|t|].direction == e.form.direction && o.table[|t|].isActive == e.form.isActive
              // `maxOrder + 1`: one above the largest listed index, 1 for an empty list
              && o.table[|t|].orderIndex == NextOrderIndex(IndexesOf(list, IndexOfSlide))
              && (forall i :: 0 <= i < |list| ==> list[i].orderIndex < o.table[|t|].orderIndex)
              && (list == [] ==> o.table[|t|].orderIndex == 1)
              && (list != [] ==> exists i :: 0 <= i < |list| && o.table[|t|].orderIndex == list[i].orderIndex + 1)
  {
    if !ok then SubmitOutcome(t, e, SaveFailed)
    else match e.editing
      case Some(s) => SubmitOutcome(EditRows(t, s.id, e.form), ClosedEditor, Saved)
      case None => SubmitOutcome(t + [NewSlide(list, e.form, newId)], ClosedEditor, Saved)
  }

  /** Opening a slide and saving the form untouched changes only a null
      description into empty text. */
  lemma EditRoundTrip(t: SlideList, s: Slide, list: SlideList, newId: string)
    ensures var o := Submit(OpenEdit(s), list, t, newId, true);
            forall i :: 0 <= i < |t| && t[i] == s ==> o.table[i] == s.(description := Some(OrElse(s.description, "")))
  {
  }

  // ---------------------------------------------------------------------------
  // handleReorder

  datatype Move = Up | Down

  /** `findIndex`: the first position with that id, or -1. */
  function FindIndex(s: SlideList, id: string): (r: int)
    ensures -1 <= r < |s|
    ensures r >= 0 ==> s[r].id == id && forall j :: 0 <= j < r ==> s[j].id != id
    ensures r == -1 <==> forall j :: 0 <= j < |s| ==> s[j].id != id
  {
    if s == [] then -1
    else if s[0].id == id then 0
    else
      var r := FindIndex(s[1..], id);
      if r == -1 then -1 else r + 1
  }

  function Swap(s: SlideList, i: nat, j: nat): (r: SlideList)
    requires i < |s| && j < |s|
    ensures |r| == |s|
    ensures r[i] == s[j] && r[j] == s[i]
    ensures forall k :: 0 <= k < |s| && k != i && k != j ==> r[k] == s[k]
    ensures multiset(r) == multiset(s)
  {
    s[i := s[j]][j := s[i]]
  }

  /** One `update({ order_index }).eq('id', id)` of the batch. */
  datatype OrderWrite = OrderWrite(id: string, orderIndex: int)

  /** Each slide's 0-based position in the new order, as the batch of writes. */
  function Renumber(order: SlideList): (ws: seq<OrderWrite>)
    ensures |ws| == |order|
    ensures forall k :: 0 <= k < |order| ==> ws[k] == OrderWrite(order[k].id, k)
  {
    seq(|order|, k requires 0 <= k < |order| => OrderWrite(order[k].id, k))
  }

  /** What a click on an arrow does before any write: nothing, an exception, or
      a batch of writes. */
  datatype Plan = NoChange | Crashed | Writes(writes: seq<OrderWrite>)

  /** The arrows of the first slide up and the last slide down do nothing.
      Otherwise the slide trades places with its neighbour and every slide's
      index is rewritten. An id missing from the list reads as position -1:
      moving it up rewrites the current order as it is, and moving it down reads
      a property of `undefined` and throws before the first write. */
  function PlanReorder(list: SlideList, id: string, m: Move): (p: Plan)
    ensures var c := FindIndex(list, id);
            (m == Up && c == 0) || (m == Down && c == |list| - 1) <==> p == NoChange
    ensures p == Crashed <==> m == Down && list != [] && FindIndex(list, id) == -1
    ensures m == Up && FindIndex(list, id) == -1 ==> p == Writes(Renumber(list))
    ensures var c := FindIndex(list, id);
            m == Up && c > 0 ==> p == Writes(Renumber(Swap(list, c, c - 1)))
    ensures var c := FindIndex(list, id);
            m == Down && 0 <= c < |list| - 1 ==> p == Writes(Renumber(Swap(list, c, c + 1)))
  {
    var c := FindIndex(list, id);
    if (m == Up && c == 0) || (m == Down && c == |list| - 1) then NoChange
    else if c == -1 then (if m == Up then Writes(Renumber(list)) else Crashed)
    else if m == Up then Writes(Renumber(Swap(list, c, c - 1)))
    else
      assert m == Down && c < |list| - 1;
      Writes(Renumber(Swap(list, c, c + 1)))
  }

  /** The writes run one after another; a later write to the same id wins. */
  function ApplyWrites(t: SlideList, ws: seq<OrderWrite>): (r: SlideList)
    ensures |r| == |t|
  {
    if ws == [] then t
    else
      var last := ws[|ws| - 1];
      var before := ApplyWrites(t, ws[..|ws| - 1]);
      seq(|before|, i requires 0 <= i < |before| => if before[i].id == last.id then before[i].(orderIndex := last.orderIndex) else before[i])
  }

  /** The index the last write for `id` sets, if any write is for `id`. */
  function LastWriteFor(ws: seq<OrderWrite>, id: string): Option<int>
  {
    if ws == [] then None
    else if ws[|ws| - 1].id == id then Some(ws[|ws| - 1].orderIndex)
    else LastWriteFor(ws[..|ws| - 1], id)
  }

  /** Row by row, a batch leaves every column but `order_index` alone and sets
      that to the value of the last write for the row's id. */
  lemma {:induction false} ApplyWritesPointwise(t: SlideList, ws: seq<OrderWrite>, i: nat)
    requires i < |t|
    ensures ApplyWrites(t, ws)[i] == t[i].(orderIndex := LastWriteFor(ws, t[i].id).GetOr(t[i].orderIndex))
  {
    if ws != [] {
      ApplyWritesPointwise(t, ws[..|ws| - 1], i);
    }
  }

  /** With distinct ids in the new order, the last write for a slide's id
      carries that slide's position. */
  lemma {:induction false} RenumberLastWrite(order: SlideList, p: nat)
    requires UniqueIds(order) && p < |order|
    ensures LastWriteFor(Renumber(order), order[p].id) == Some(p)
  {
    var n := |order|;
    var ws := Renumber(order);
    if p < n - 1 {
      var front := order[..n - 1];
      assert ws[..n - 1] == Renumber(front);
      assert front[p] == order[p];
      assert UniqueIds(front);
      RenumberLastWrite(front, p);
    }
  }

  /** Ids absent from the new order receive no write. */
  lemma {:induction false} RenumberMissesOthers(order: SlideList, id: string)
    requires forall k :: 0 <= k < |order| ==> order[k].id != id
    ensures LastWriteFor(Renumber(order), id) == None
  {
    var n := |order|;
    if n > 0 {
      var front := order[..n - 1];
      assert Renumber(order)[..n - 1] == Renumber(front);
      RenumberMissesOthers(front, id);
    }
  }

  /** Against a table holding exactly the listed slides, a move swaps the
      indices of the two neighbours and gives every other slide its position:
      afterwards the indices are exactly 0..n-1 and only `order_index` changed. */
  lemma SwapRenumbersTable(list: SlideList, c: nat, d: nat)
    requires UniqueIds(list) && c < |list| && d < |list| && (d == c + 1 || c == d + 1)
    ensures var r := ApplyWrites(list, Renumber(Swap(list, c, d)));
            && |r| == |list|
            && r[c] == list[c].(orderIndex := d)
            && r[d] == list[d].(orderIndex := c)
            && (forall k :: 0 <= k < |list| && k != c && k != d ==> r[k] == list[k].(orderIndex := k))
  {
    var w := Swap(list, c, d);
    assert UniqueIds(w) by {
      forall a, b | 0 <= a < b < |w|
        ensures w[a].id != w[b].id
      {
        var a' := if a == c then d else if a == d then c else a;
        var b' := if b == c then d else if b == d then c else b;
        assert w[a] == list[a'] && w[b] == list[b'];
        assert a' != b';
      }
    }
    forall k | 0 <= k < |list|
      ensures ApplyWrites(list, Renumber(w))[k] == list[k].(orderIndex := if k == c then d else if k == d then c else k)
    {
      var k' := if k == c then d else if k == d then c else k;
      assert w[k'] == list[k];
      RenumberLastWrite(w, k');
      ApplyWritesPointwise(list, Renumber(w), k);
    }
  }

  /** Moving a slide changes no slide's content, only positions: the new order
      holds the same slides, and every place but the two swapped is kept. */
  lemma ReorderIsAdjacentSwap(list: SlideList, id: string, m: Move)
    requires PlanReorder(list, id, m).Writes? && FindIndex(list, id) >= 0
    ensures var c := FindIndex(list, id);
            var d := if m == Up then c - 1 else c + 1;
            && 0 <= d < |list|
            && PlanReorder(list, id, m) == Writes(Renumber(Swap(list, c, d)))
            && multiset(Swap(list, c, d)) == multiset(list)
  {
  }

  /** The new order a move writes holds only slides of the list, so an id
      the list lacks is absent from it too. */
  lemma ReorderOrderFromList(list: SlideList, id: string, m: Move, other: string) returns (order: SlideList)
    requires PlanReorder(list, id, m).Writes?
    requires forall k :: 0 <= k < |list| ==> list[k].id != other
    ensures PlanReorder(list, id, m).writes == Renumber(order)
    ensures forall k :: 0 <= k < |order| ==> order[k].id != other
  {
    var c := FindIndex(list, id);
    if c == -1 {
      order := list;
    } else {
      var d := if m == Up then c - 1 else c + 1;
      assert 0 <= d < |list|;
      order := Swap(list, c, d);
      forall k | 0 <= k < |order|
        ensures order[k].id != other
      {
        var j := if k == c then d else if k == d then c else k;
        assert order[k] == list[j];
      }
    }
  }

  /** The batch never touches a slide the list does not hold. */
  lemma ReorderLeavesUnlistedRows(list: SlideList, t: SlideList, id: string, m: Move, i: nat)
    requires PlanReorder(list, id, m).Writes? && i < |t|
    requires forall k :: 0 <= k < |list| ==> list[k].id != t[i].id
    ensures ApplyWrites(t, PlanReorder(list, id, m).writes)[i] == t[i]
  {
    var order := ReorderOrderFromList(list, id, m, t[i].id);
    RenumberMissesOthers(order, t[i].id);
    ApplyWritesPointwise(t, Renumber(order), i);
  }
}

=== FILE: wrappers.dfy ===
/** Optional values: JavaScript's `null` / `undefined` become `None`. */
module Wrappers {

  datatype Option<+T> = None | Some(value: T) {

    /** The wrapped value, or `default` when there is none. */
    function GetOr(default: T): T
    {
      match this
      case Some(v) => v
      case None => default
    }
  }
}
